=== FILE: README.md ===
# django-markers in Dafny

A model of the core of django-markers, a Django app that serves PNG map
markers. A marker is a template image, optionally hue-shifted, at some
opacity, with optional text drawn on it. Each distinct request is rendered
once and cached on disk under an md5-derived name.

The model covers the `Marker` class in `markers/models.py` and the view in
`markers/views.py`:

- construction-time validation, in its fixed order: hue, then text colour, then opacity, then template;
- the opacity-to-alpha mapping;
- the seven-field cache key;
- template selection: the resolved template for hue 0, the colourised workspace copy otherwise;
- the text auto-centring and per-pixel text-overlay rules;
- the read-through PNG cache and the public URL;
- the template-filename split;
- the view's query-string coercion and its mapping of errors to responses.

Modules:

| file | module | contents |
|---|---|---|
| `results.dfy` | `Results` | `Option` and `Result` |
| `numerals.dfy` | `Numerals` | what `int()` reads and `str()` writes for integers |
| `strings.dfy` | `Strings` | `str.replace`, `str.lower`, `os.path.join`, HTML escaping, `-`-joining |
| `pyvalues.dfy` | `PyValues` | the Python values reaching the constructor: `int()`, `float()`, comparisons, `%s` and `repr` |
| `raster.dfy` | `Raster` | images as pixel grids; the text-overlay pixel rules; hex colours |
| `markers.dfy` | `Markers` | `Marker`: validation, key, template selection, centring, rendering, cache, URL |
| `views.dfy` | `Views` | `MarkerView.get`, `_get_float`, `_get_int` |

The collaborators the code calls but does not define are fields of
`Markers.Env`. Each is a function the model leaves uninterpreted:

- the two settings `MEDIA_ROOT` and `MEDIA_URL`;
- md5;
- Django's `FileSystemFinder` and `AppDirectoriesFinder`;
- PIL's text measuring, drawing and pasting;
- the colorsys hue replacement;
- Python's `repr` of a float.

The file system is a map from path to stored file, threaded through every
operation that writes. Python exceptions that the code does not catch become
`MarkerError.Uncaught` during construction, and `Response.ServerError` in
the view.

Python 3 semantics are modelled: `/` is true division, and the key text is
encoded before hashing. Under Python 2, the centring division would floor.

Three behaviours of the code are easy to misread:

- **Empty text.** The text layer is built and pasted even when the text is
  empty (models.py:129-131).
- **Workspace copy.** The colourised copy of the template is recomputed and
  re-saved at every construction with a non-zero hue. Variants share it only
  in that it always has the same path and the same content
  (`Markers.WorkspaceSharedAcrossVariants`).
- **Hue message.** The hue error message says "between -180 and 180". The
  check accepts [0, 360]. The message is reproduced verbatim.

## Model

| member | source | states |
|---|---|---|
| `Markers.CheckHue` | markers/models.py:62-68 | A hue is accepted exactly when `int(hue)` succeeds and lies in [0, 360], and the accepted value is that integer. ValueError and the range failure both give InvalidHueError with the fixed message. Any other exception from `int()` escapes unchanged. |
| `Markers.HueIntRange` | markers/models.py:62-68 | An integer hue is accepted if and only if 0 <= hue <= 360; otherwise InvalidHueError. |
| `Markers.HueTextRange` | markers/models.py:62-68 | A hue given as the text of an integer is accepted exactly on [0, 360], with that integer as the hue; otherwise InvalidHueError. |
| `Markers.HueOfBool` | markers/models.py:62-64 | `int()` of a bool is 0 or 1, so False is hue 0 and True is hue 1, both accepted. |
| `Markers.HueFloatRange` | markers/models.py:62-64 | A finite float hue is accepted if and only if -1 < hue < 361, because `int` truncates toward zero. The accepted value is the truncation. |
| `Markers.HueBoundaries` | markers/models.py:62-68 | 360 is accepted and 361 and -1 are refused; 360.9 becomes 360 and -0.5 becomes 0. NaN is refused as a bad hue; infinity escapes as OverflowError; None escapes as TypeError. |
| `Markers.ColourPatternExact` | markers/models.py:70 | The colour regex accepts exactly six hex digits in either case, optionally followed by one final newline (Python's `$`). |
| `Markers.CheckColour` | markers/models.py:70-73 | A colour passes if and only if it is a string matching the pattern, and the accepted text decodes as an RGB colour. A non-matching string gives InvalidColourError naming it; a non-string makes `re.match` raise TypeError. |
| `Markers.ColourAccepted` | markers/models.py:70-73 | Six hex digits, with or without one final newline, pass the colour check unchanged. |
| `Markers.ColourRejected` | markers/models.py:70-73 | A text with a non-hex character among its first six is refused with InvalidColourError naming it. |
| `Markers.ColourExamples` | markers/models.py:70-73 | `aabbcc`, `AABBCC` and `aabbcc` plus a newline pass; `GGGGGG` is refused with its own message. |
| `Markers.OpacityAcceptance` | markers/models.py:75-78 | Ints pass exactly on [0, 1] and finite floats exactly on [0.0, 1.0]; bools pass. Infinities, strings and None are refused. NaN passes, because every comparison with it is false. |
| `Markers.OpacityLevel` | markers/models.py:85 | For a finite non-negative opacity o, the level is the integer n with n <= o*255 < n+1. Every accepted finite opacity gives a level in [0, 255]. NaN raises ValueError. |
| `Markers.OpacityExamples` | markers/models.py:85 | 1 and 1.0 map to 255, 0.5 maps to 127 (truncation, not rounding), and 0.0 maps to 0. |
| `Markers.FindTemplate` | markers/models.py:219-227 | The file-system finder's answer is used when truthy, otherwise the app-directories finder's. When neither is truthy, the result is InvalidTemplateError naming the template. |
| `Markers.BuildTemplateFromRgb` | markers/models.py:229-251 | On success, the result is the workspace path built from md5 of `"<name>-<hue>"`. The store gains exactly that file, holding the resolved template hue-shifted. It succeeds exactly when the template is found, the found file opens, and the name is ASCII. A finder failure is passed on as it is. A file that does not open gives IOError. A name outside ASCII gives UnicodeEncodeError. Every failure leaves the store unchanged. |
| `Markers.FilenameRoundTrip` | markers/models.py:209-217 | A newline-free name, a dot and a word-character extension, with or without a final newline, split back into that name and extension. |
| `Markers.FilenameSound` | markers/models.py:209-217 | Whatever the split accepts is a newline-free name, a dot and a word extension, perhaps followed by one newline. |
| `Markers.Construct` | markers/models.py:38-104 | Checks run in order (hue, colour, opacity, template), and the first failure is the error reported. A refused hue gives exactly the error `CheckHue` gives and writes nothing. A refusal with one of the four typed errors writes nothing. Once the values pass, the store is exactly what template selection leaves, a template failure (the template is unknown, or for a non-zero hue IOError or UnicodeEncodeError) is the error reported, and a NaN opacity then raises ValueError. An accepted marker holds the truncated hue, an opacity level within one unit below o*255, and the text, position, size and colour as given. Its template is the workspace copy when the hue is non-zero and the resolved template otherwise. Its key is md5 of its own key text. A hue of 0 writes nothing. A non-zero hue adds exactly the workspace file. A marker is built exactly when all four checks pass, the opacity is a finite float, and, for a non-zero hue, the template file opens and its name is ASCII. |
| `Markers.CheckValues` | markers/models.py:62-78 | The values pass exactly when the hue is accepted, the colour matches six hex digits and the opacity is a number in [0, 1] or NaN. NaN passes both comparisons and fails later, in `Construct`. The first failing check, in that order, is the error reported; for the hue it is exactly `CheckHue`'s error. |
| `Markers.SelectTemplate` | markers/models.py:80-83 | Hue 0 gives exactly the template finder's answer and writes nothing. Any other hue gives exactly `_build_template_from_rgb`'s answer: it writes the recoloured template into the workspace and uses that file, raises IOError when the template does not open and UnicodeEncodeError when its name is not ASCII, and writes nothing on failure. It succeeds exactly when the template is found, opens, and has an ASCII name. An unknown template is refused with the store unchanged. |
| `Markers.Assemble` | markers/models.py:85-104 | Assembly fails only when the opacity is not a finite float, and then with an uncaught exception; for NaN it is exactly ValueError from `int()`. An assembled marker's opacity is the floor of `opacity * 255`. It keeps the text, position, size and colour as given, and its key is the md5 of its key text. |
| `Markers.NanOpacityKeepsWorkspace` | markers/models.py:80-85 | A NaN opacity with a non-zero hue and an openable ASCII-named template raises ValueError at `int(opacity * 255)`, and the recoloured workspace file written just before stays in the store. |
| `Markers.ConstructDefaults` | markers/models.py:38-104 | With the constructor's defaults and a known template, the marker has hue 0 and opacity 255, and nothing is written. The key text is `<template>-0-255--[None, None]-10-000000`. |
| `Markers.DefaultsConstructed` | markers/models.py:38-89 | With the defaults, the constructed marker is exactly: the resolved template, hue 0, opacity 255, empty text, no position, size 10, colour `000000`, keyed by md5 of its key text. |
| `Markers.DefaultKeyText` | markers/models.py:91-104 | The default fields are written as `<template>-0-255--[None, None]-10-000000`. |
| `Markers.HueCheckedFirst` | markers/models.py:62-78 | With a bad hue, a bad colour and a bad opacity together, only the hue error is reported and nothing is written. |
| `Markers.KeyTextSeparatesHueAndOpacity` | markers/models.py:91-104 | For one template, equal key texts mean equal hue and equal opacity level: those fields are dash-free numerals. |
| `Markers.KeyTextSeparatesText` | markers/models.py:91-104 | Markers that differ only in their text have different key texts. |
| `Markers.KeyTextNotInjective` | markers/models.py:91-104 | Two different markers can share a key text, hence one cache file. Template `p` with text `0-255-x` collides with template `p-0-255` with text `x`. |
| `Markers.WorkspaceSharedAcrossVariants` | markers/models.py:229-251 | Two constructions with the same template and the same non-zero hue use the same workspace path and leave the same image there, whatever their other fields. |
| `Markers.CentreBalancesMargins` | markers/models.py:183-186 | An unset coordinate is set so that the margins either side of the text are equal, as an exact float. A supplied coordinate is unchanged. |
| `Markers.CentreExample` | markers/models.py:183-186 | Text 40 by 10 on a 200 by 100 image is placed at (80.0, 45.0); a supplied x of 3 is kept. |
| `Raster.CoverageMask` | markers/models.py:203 | The mask level is 255 if and only if the text pixel is non-zero, and 0 otherwise. |
| `Raster.OverlayPixel` | markers/models.py:196-205 | One overlay pixel takes its alpha from the text level, its colour from the fill where the text has coverage, and black elsewhere. |
| `Raster.TextLayer` | markers/models.py:193-207 | The returned mask is the text raster itself. Each overlay pixel has the text level as alpha, and the fill colour where that level is non-zero, black elsewhere. |
| `Raster.Colourize` | markers/models.py:271-281 | Each pixel's colour is replaced with the hue set to hue/360; the alpha channel passes through unchanged; the dimensions are kept. |
| `Raster.HexRoundTrip` | markers/models.py:200-202 | Any colour written as six hex digits reads back as that colour. |
| `Raster.RgbToHexOfRead` | markers/models.py:200-202 | Reading six hex digits and writing the colour back gives the same digits in lower case. |
| `Markers.GetMarker` | markers/models.py:117-140 | A hit returns the cached image and writes nothing. A miss that renders adds exactly the key's file with the rendered image, and returns it read back. A miss that fails writes nothing and passes the exception on. A successful result can always be re-read from the store. |
| `Markers.GetMarkerIdempotent` | markers/models.py:117-140 | Fetching a marker again after a successful fetch returns the same result and writes nothing. |
| `Markers.GetMarkerAddsOnlyItsFile` | markers/models.py:123-140 | On a miss, no path other than the key's cache file is added or changed. |
| `Markers.CachePathUnderRoot` | markers/models.py:119-121 | The cache path starts with MEDIA_ROOT. |
| `Markers.CachePathSpelled` | markers/models.py:119-121 | For a key not starting with `/`, the cache path is MEDIA_ROOT, one `/` unless the root is empty or already ends in one, then `cache/markers/<key>.png`. |
| `Markers.WorkspacePathSpelled` | markers/models.py:235-242 | The colourised copy is MEDIA_ROOT, the same single separator, then `cache/markers/_workspace/<md5 of "<name>-<hue>">.png`. |
| `Markers.MarkerUrl` | markers/models.py:112-115 | The URL is the cache path with every MEDIA_ROOT replaced by MEDIA_URL. It exists exactly when the fetch succeeds, and the store is the fetch's store. |
| `Markers.MarkerUrlUnderMediaUrl` | markers/models.py:112-121 | When MEDIA_ROOT occurs in the cache path only as its prefix, the URL is MEDIA_URL followed by the rest of the path. |
| `Markers.MarkerUrlIdentity` | markers/models.py:112-115 | When MEDIA_URL equals MEDIA_ROOT, the URL is the cache path itself. |
| `Numerals.NatToDecimal` | markers/models.py:93-102 | `%s` of a non-negative integer is a non-empty digit string, without a leading zero, whose value is the integer. |
| `Numerals.DecimalInjective` | markers/models.py:93-102 | Distinct integers are written as distinct numerals. |
| `Numerals.ParseIntOfDecimal` | markers/views.py:60-68 | `int()` reads back what `str()` wrote for any integer. |
| `PyValues.Trunc` | markers/models.py:85 | `int()` of a finite float rounds toward zero: the result lies within one unit of the input on the side nearer zero. |
| `PyValues.ParseFloatOfDecimal` | markers/views.py:50-58 | `float()` reads an integer numeral as that integer's value. |
| `PyValues.ParseFloatOfFraction` | markers/views.py:50-58 | `float()` reads `whole.fraction`, or its negation, as the exact value of its digits over ten to the number of fraction digits. |
| `PyValues.ParseFloatOfWord` | markers/views.py:50-58 | `float()` reads `inf` as positive infinity and `nan` as NaN. |
| `PyValues.StrReprPlain` | markers/models.py:99 | A plain ASCII string appears in the position list's text as itself between single quotes. |
| `PyValues.ReprSoftHyphen` | markers/models.py:99 | `repr` writes the non-printable soft hyphen U+00AD as the escape `\xad`. |
| `Strings.PathJoin` | markers/models.py:119-121 | An absolute second part replaces the first. Otherwise the parts are joined with one `/` between them, added exactly when the first part is non-empty and does not already end in `/`. |
| `Strings.Escape` | markers/views.py:43 | The escaped text contains none of `<`, `>`, `"` and `'`. |
| `Strings.EscapeApostrophe` | markers/views.py:43 | The apostrophe becomes `&#39;`, as the `escape` filter writes it in the Django releases the code targets (its `urls.py` uses `patterns`, removed in Django 1.10). |
| `Strings.UnescapeEscape` | markers/views.py:43 | Escaping loses nothing: reading back the entities gives the original text. |
| `Strings.ReplaceAllAbsent` | markers/models.py:113-115 | Replacing a string that does not occur changes nothing. |
| `Strings.ReplaceAllSelf` | markers/models.py:113-115 | Replacing a string by itself changes nothing. |
| `Views.GetFloat` | markers/views.py:50-58 | The result is always a number. An absent key gives the default as a float. A present value gives a float exactly when `float()` reads it. Otherwise the result is the integer default. |
| `Views.GetFloatValue` | markers/views.py:50-58 | The value the marker sees is the parsed one, or the default whenever the key is absent or unreadable. |
| `Views.GetFloatOfNumeral` | markers/views.py:50-58 | A parameter written as an integer numeral arrives as that number, as a float. |
| `Views.ParseFloatLetters` | markers/views.py:50-58 | Lower-case letters without `e` are not a float unless they spell `inf`, `infinity` or `nan`, so `_get_float` falls back. |
| `Views.ParseFloatHueNearTop` | markers/views.py:50-58 | `float("360.9")` is exactly 360.9. |
| `Views.ParseFloatNegativeHalf` | markers/views.py:50-58 | `float("-0.5")` is exactly -0.5. |
| `Views.GetInt` | markers/views.py:60-68 | The result is the value `int()` reads when the key is present and readable, and the default otherwise. |
| `Views.GetIntOfNumeral` | markers/views.py:60-68 | A parameter written as an integer numeral arrives as that integer. |
| `Views.ParseIntOfDigitLike` | markers/views.py:20-21 | On text `isdigit` accepts, `int()` gives the digits' value when all are decimal. It raises ValueError when one is a superscript. |
| `Views.Coordinate` | markers/views.py:19-25 | Absent gives None. Non-empty `isdigit` text is converted by `int`, which raises ValueError on superscript digits. Anything else, empty text included, stays text. |
| `Views.CoordinateOfNumeral` | markers/views.py:19-21 | A coordinate written as `str(n)` arrives as the integer n. |
| `Views.CoordinateExamples` | markers/views.py:19-25 | `-3`, the empty string, ` 7` and `abc` stay text; a superscript two makes the view raise ValueError. |
| `Views.Prepare` | markers/views.py:19-36 | A `text_x` or `text_y` that is digit-like but not decimal raises ValueError before construction, and nothing is written. Otherwise the marker is constructed from the query, with these fields: hue from `_get_float("hue", 0)`, the opacity level from `_get_float("opacity", 1)`, text from `text` (default empty), position from the two coerced coordinates, size from `_get_int("text_size", 11)`, colour from `text_colour` (default `000000`). A typed refusal writes nothing. |
| `Views.Get` | markers/views.py:17-48 | The response is a bad request exactly when construction fails with one of the four typed errors. Its body is free of markup characters, unescapes to the error's message, and nothing is written. The response is an image exactly when construction and the cache fetch succeed, and that image and the resulting store are exactly what the cache fetch returned, the image being in the store under the key's path. Every other outcome is a server error carrying the exception that construction or the fetch raised, with the store as that step left it. |
| `Views.ViewDefaults` | markers/views.py:27-36 | An empty query gives hue 0.0, opacity 1.0, empty text, the position both missing coordinates coerce to (None, None), colour `000000` and text size 11, unlike the constructor's default of 10. Hue 0 and opacity level 255 follow. |
| `Views.UnreadableHueIsZero` | markers/views.py:30 | A hue parameter `float()` cannot read falls back to hue 0 instead of being refused. |
| `Views.FractionalHue` | markers/views.py:30 | Through the view, `hue=360.9` is hue 360 and `hue=-0.5` is hue 0. |
| `Views.RefusedHue` | markers/views.py:27-43 | With no coordinates, a hue the check refuses ends the request before anything is written. |
| `Views.NanHue` | markers/views.py:27-43 | `hue=nan` is a bad request carrying the escaped hue message, and nothing is written. |
| `Views.InfiniteHue` | markers/views.py:27-43 | `hue=inf` is a server error (OverflowError), and nothing is written. |
| `Views.SuperscriptCoordinate` | markers/views.py:19-21 | A `text_x` of a superscript two is a server error (ValueError), whatever else the query holds. |
| `Views.RefusalsWriteNothing` | markers/views.py:37-43 | A bad-request response leaves the store unchanged, and its body is the escaped message of the construction error. |
| `Views.GetIdempotent` | markers/views.py:45-48 | Repeating a request just served for a hue-0 marker returns the same image and writes nothing. |

## Left out

- PIL is not modelled beyond the uninterpreted `Env` functions. That covers `Image.open/new/paste/save`, the blending inside `paste`, font loading, `textsize` and `ImageDraw.text`. Measuring uses the default font and drawing uses the bundled TrueType font at the given size, as in the source.
- PNG encoding and decoding are not modelled. A stored file is either an image or unreadable.
- Any exception the imaging library raises while drawing text (a bad coordinate or size) is reported as TypeError, whatever its real class.
- `_shift_hue` and `_colourize` (numpy-vectorised colorsys) are an uninterpreted per-pixel colour function. Only the pass-through of alpha and the hue fraction hue/360 are stated.
- md5 is an uninterpreted function. No injectivity is assumed; `Markers.KeyTextNotInjective` shows the key text itself is not injective.
- `os.makedirs` is not modelled: directory creation never fails a call, which matches the bare `except: pass` around it.
- `Image.save` never fails in the model.
- Floats are exact reals, not IEEE-754 doubles. There is no rounding. A huge literal such as `1e400` reads as a finite value instead of infinity. `repr` of a float is supplied by `Env`.
- Character handling is ASCII only:
  - `str.isspace` and `str.lower` cover ASCII only;
  - `\w` in the filename regex covers ASCII only;
  - `int()` and `float()` accept only ASCII digits;
  - `str.isdigit` is modelled up to U+00FF: the ten digits plus the superscripts one, two and three.
- `PyValues.StrRepr`: non-printable characters above U+00FF are written unchanged, where Python writes `\uXXXX` or `\UXXXXXXXX`. Deciding which of them are printable needs the Unicode character database. Below U+0100 the escapes are modelled.
- `Markers.CheckHue`: the model assumes Python runs with assertions enabled. Under `python -O` the range `assert` (models.py:64) is stripped, so every integer hue passes and the template is colourised with it.
- Underscores in numeric literals, and the 4300-digit limit on `int()` of Python 3.11, are not modelled.
- Python 2 is not modelled; Python 3 is.
- The query string holds one value per parameter. Django's QueryDict returns the last of several values; that is not modelled.
- `Views.Get`: the image is returned as pixels; writing it into the HTTP response as PNG is not modelled.
- `_get_text_layer` writes the centred coordinates back into the marker's own position list (models.py:183-186). The model passes the centred position as a value. The write-back only matters if the same object is rendered twice, and after its key has been computed.
- Text colour: a colour with a trailing newline passes the check. The model reads its first six digits, on the assumption that the imaging library's own `#rrggbb` pattern admits the same newline.
- `markers/templatetags/markers.py` is not part of this model. It swallows the template, colour and opacity errors to an empty string. It lets InvalidHueError propagate (line 36), and its default text size is 10.
- `markers/management/commands/clean_markers.py` (an interactive delete of the cache tree), `markers/urls.py` and `setup.py` are not part of this model.
- `markers/exceptions.py` is not part of this model. Each typed error is taken to carry its message as `str(e)`.
- `Markers.Render` composes the uninterpreted imaging calls. It has no contract of its own; its per-pixel parts are stated by `Raster.TextLayer` and `Raster.OverlayPixel`.

=== FILE: markers.dfy ===
/**
 The marker: construction-time validation and normalisation, the cache key,
 template selection (resolved template or colourised workspace copy), the
 text auto-centring, the read-through PNG cache and the public URL.
 */
module Markers {
  import opened Results
  import opened Numerals
  import opened PyValues
  import opened Raster
  import Strings

  /**
   The collaborators the marker code calls but does not define: the two
   settings it reads, md5, Django's two static finders, and the parts of the
   imaging library and `colorsys` it drives.
   */
  datatype Env = Env(
    mediaRoot: string,
    mediaUrl: string,
    /** The hex digest of the md5 of the text's encoding. */
    md5Hex: string -> string,
    /** `FileSystemFinder().find(name)`: the absolute path found, or None. */
    fileSystemFinder: string -> Option<string>,
    /** `AppDirectoriesFinder().find(name)`. */
    appDirectoriesFinder: string -> Option<string>,
    /** The colour with its hue replaced by the given fraction, saturation and value kept. */
    shiftHue: (Rgb, real) -> Rgb,
    /** `ImageDraw.textsize(text)` with the default font: (width, height). */
    measureText: string -> (int, int),
    /**
     Draws text in white on a black grey canvas of the given width and height,
     at coordinates (x, y), with the bundled font at the given size; None when
     the imaging library raises (a coordinate or size it cannot use).
     */
    drawText: (PyValue, PyValue, string, PyValue, nat, nat) -> Option<Grey>,
    /** `dst.paste(src, (0, 0), mask)`: `src` blended onto `dst` through `mask`. */
    paste: (Image, Image, Grey) -> Image,
    /** `repr` of a float. */
    floatRepr: Float -> string)

  /** A file on disk as the imaging library sees it. */
  datatype StoredFile = PngFile(image: Image) | Unreadable

  /** The filesystem: every path that holds a file. Directories are implicit. */
  type Store = map<string, StoredFile>

  /** `Image.open(path)`: None where the library raises IOError (no file, or not an image). */
  function Open(fs: Store, path: string): (r: Option<Image>)
    ensures r.None? <==> path !in fs || fs[path] == Unreadable
    ensures r.Some? ==> fs[path] == PngFile(r.value)
  {
    if path in fs && fs[path].PngFile? then Some(fs[path].image) else None
  }

  /** The keyword arguments of `Marker(...)`. */
  datatype MarkerArgs = MarkerArgs(
    template: string,
    hue: PyValue,
    opacity: PyValue,
    text: string,
    textPosition: (PyValue, PyValue),
    textSize: PyValue,
    textColour: PyValue)

  /** The constructor's defaults, for a given template. */
  function DefaultArgs(template: string): MarkerArgs {
    MarkerArgs(template, PyInt(0), PyInt(1), "", (PyNone, PyNone), PyInt(10), PyStr("000000"))
  }

  /** A constructed marker: the normalised fields and the cache key derived from them. */
  datatype Marker = Marker(
    template: string,
    hue: int,
    opacity: Byte,
    text: string,
    textPosition: (PyValue, PyValue),
    textSize: PyValue,
    textColour: string,
    key: string)

  /** The four typed validation errors, and an exception the constructor lets escape. */
  datatype MarkerError =
    | InvalidHue(message: string)
    | InvalidColour(message: string)
    | InvalidOpacity(message: string)
    | InvalidTemplate(message: string)
    | Uncaught(exception: PyException)

  const HueMessage := "Hue must be an integer between -180 and 180"
  const OpacityMessage := "Opacity must be a float or integer <= 1 and >= 0"
  const FilenameMessage := "The template path supplied does not look like it points to an image file"

  function ColourMessage(colour: string): string {
    colour + " does not appear to be a hex colour"
  }

  function TemplateMessage(name: string): string {
    name + " is not a known template"
  }

  // ---------------------------------------------------------------- hue

  /** `int(hue)` and the range assertion; only ValueError and the assertion become InvalidHueError. */
  function CheckHue(v: PyValue): (r: Result<int, MarkerError>)
    ensures r.Ok? ==> 0 <= r.value <= 360 && IntOf(v) == Ok(r.value)
    ensures r.Ok? <==> HueAccepted(v)
    ensures HueAccepted(v) ==> r == Ok(IntOf(v).value)
    ensures IntOf(v) == Err(ValueError) || (IntOf(v).Ok? && !HueAccepted(v)) ==> r == Err(InvalidHue(HueMessage))
    ensures IntOf(v).Err? && IntOf(v).error != ValueError ==> r == Err(Uncaught(IntOf(v).error))
  {
    match IntOf(v)
    case Ok(h) => if 0 <= h <= 360 then Ok(h) else Err(InvalidHue(HueMessage))
    case Err(ValueError) => Err(InvalidHue(HueMessage))
    case Err(e) => Err(Uncaught(e))
  }

  predicate HueAccepted(v: PyValue) {
    IntOf(v).Ok? && 0 <= IntOf(v).value <= 360
  }

  /** An integer hue is accepted exactly on [0, 360]. */
  lemma HueIntRange(i: int)
    ensures CheckHue(PyInt(i)).Ok? <==> 0 <= i <= 360
    ensures !(0 <= i <= 360) ==> CheckHue(PyInt(i)) == Err(InvalidHue(HueMessage))
  {
  }

  /** A hue given as the text of an integer is read by `int()` and accepted exactly on [0, 360]. */
  lemma HueTextRange(i: int)
    ensures CheckHue(PyStr(IntToDecimal(i))).Ok? <==> 0 <= i <= 360
    ensures CheckHue(PyStr(IntToDecimal(i))).Ok? ==> CheckHue(PyStr(IntToDecimal(i))).value == i
    ensures !(0 <= i <= 360) ==> CheckHue(PyStr(IntToDecimal(i))) == Err(InvalidHue(HueMessage))
  {
    ParseIntOfDecimal(i);
    IntOfText(IntToDecimal(i), i);
    HueOfInteger(PyStr(IntToDecimal(i)), i);
  }

  lemma IntOfText(s: string, i: int)
    requires ParseInt(s) == Some(i)
    ensures IntOf(PyStr(s)) == Ok(i)
  {
  }

  /** Any value that `int()` reads as `i` is accepted exactly when `i` is in [0, 360]. */
  lemma HueOfInteger(v: PyValue, i: int)
    requires IntOf(v) == Ok(i)
    ensures CheckHue(v).Ok? <==> 0 <= i <= 360
    ensures CheckHue(v).Ok? ==> CheckHue(v).value == i
    ensures !(0 <= i <= 360) ==> CheckHue(v) == Err(InvalidHue(HueMessage))
  {
  }

  /** A bool is an int to Python: True is hue 1 and False is hue 0. */
  lemma HueOfBool(b: bool)
    ensures CheckHue(PyBool(b)) == Ok(if b then 1 else 0)
  {
  }

  /** A finite float hue is truncated toward zero, so it is accepted exactly on (-1, 361). */
  lemma HueFloatRange(r: real)
    ensures CheckHue(PyFloat(Finite(r))).Ok? <==> -1.0 < r < 361.0
    ensures CheckHue(PyFloat(Finite(r))).Ok? ==> CheckHue(PyFloat(Finite(r))).value == Trunc(r)
    ensures !(-1.0 < r < 361.0) ==> CheckHue(PyFloat(Finite(r))) == Err(InvalidHue(HueMessage))
  {
  }

  /** The boundary cases: 360 is accepted, 361 and -1 are not; 360.9 and -0.5 truncate into range. */
  lemma HueBoundaries()
    ensures CheckHue(PyInt(360)) == Ok(360)
    ensures CheckHue(PyInt(361)) == Err(InvalidHue(HueMessage))
    ensures CheckHue(PyInt(-1)) == Err(InvalidHue(HueMessage))
    ensures CheckHue(PyFloat(Finite(360.9))) == Ok(360)
    ensures CheckHue(PyFloat(Finite(-0.5))) == Ok(0)
    ensures CheckHue(PyFloat(NaN)) == Err(InvalidHue(HueMessage))
    ensures CheckHue(PyFloat(Inf(false))) == Err(Uncaught(OverflowError))
    ensures CheckHue(PyNone) == Err(Uncaught(TypeError))
  {
    HueFloatRange(360.9);
    HueFloatRange(-0.5);
  }

  // ---------------------------------------------------------------- colour

  /** How many of the first `limit` characters of `s` are hex digits before the first that is not. */
  function HexRun(s: string, limit: nat): (n: nat)
    ensures n <= limit && n <= |s|
    ensures forall i :: 0 <= i < n ==> IsHexDigit(s[i])
    ensures n < limit && n < |s| ==> !IsHexDigit(s[n])
  {
    if limit == 0 || s == [] || !IsHexDigit(s[0]) then 0 else 1 + HexRun(s[1..], limit - 1)
  }

  /**
   `re.match("^[a-fA-F0-9]{6}$", s)`: six hex digits, then `$`, which matches
   at the end of the text or just before a newline that ends it.
   */
  predicate MatchesColourPattern(s: string) {
    HexRun(s, 6) == 6 && (s[6..] == [] || s[6..] == "\n")
  }

  /** The pattern accepts six hex digits, optionally followed by one final newline, and nothing else. */
  lemma ColourPatternExact(s: string)
    ensures MatchesColourPattern(s) <==>
              (|s| == 6 || (|s| == 7 && s[6] == '\n')) && forall i :: 0 <= i < 6 ==> IsHexDigit(s[i])
  {
    if (|s| == 6 || (|s| == 7 && s[6] == '\n')) && forall i :: 0 <= i < 6 ==> IsHexDigit(s[i]) {
      assert HexRun(s, 6) == 6;
      if |s| == 7 {
        assert s[6..] == [s[6]];
      }
    }
  }

  /** The colour check: a string matching the pattern, or InvalidColourError; `re.match` raises TypeError on a non-string. */
  function CheckColour(v: PyValue): (r: Result<string, MarkerError>)
    ensures r.Ok? <==> v.PyStr? && MatchesColourPattern(v.s)
    ensures r.Ok? ==> r.value == v.s && HexToRgb(r.value).Some?
    ensures v.PyStr? && !MatchesColourPattern(v.s) ==> r == Err(InvalidColour(ColourMessage(v.s)))
    ensures !v.PyStr? ==> r == Err(Uncaught(TypeError))
  {
    match v
    case PyStr(s) => if MatchesColourPattern(s) then Ok(s) else Err(InvalidColour(ColourMessage(s)))
    case _ => Err(Uncaught(TypeError))
  }

  /** Six hex digits, with or without one final newline, pass the colour check. */
  lemma ColourAccepted(s: string)
    requires |s| == 6 || (|s| == 7 && s[6] == '\n')
    requires forall i :: 0 <= i < 6 ==> IsHexDigit(s[i])
    ensures CheckColour(PyStr(s)) == Ok(s)
  {
    ColourPatternExact(s);
  }

  /** A text whose first six characters are not all hex digits fails the colour check. */
  lemma ColourRejected(s: string, k: nat)
    requires k < 6 && k < |s| && !IsHexDigit(s[k])
    ensures CheckColour(PyStr(s)) == Err(InvalidColour(ColourMessage(s)))
  {
    ColourPatternExact(s);
  }

  lemma ColourExamples()
    ensures CheckColour(PyStr("aabbcc")) == Ok("aabbcc")
    ensures CheckColour(PyStr("AABBCC")) == Ok("AABBCC")
    ensures CheckColour(PyStr("aabbcc\n")) == Ok("aabbcc\n")
    ensures CheckColour(PyStr("GGGGGG")) == Err(InvalidColour(ColourMessage("GGGGGG")))
  {
    ColourAccepted("aabbcc");
    ColourAccepted("AABBCC");
    ColourAccepted("aabbcc\n");
    ColourRejected("GGGGGG", 0);
  }

  // ---------------------------------------------------------------- opacity

  /** `isinstance(opacity, (int, float)) and not (opacity > 1 or opacity < 0)`. */
  predicate OpacityPasses(v: PyValue) {
    IsNumber(v) && !FloatGreater(FloatOf(v), 1.0) && !FloatLess(FloatOf(v), 0.0)
  }

  /** Which opacities pass the check: numbers in [0, 1] and, since every comparison with it is false, NaN. */
  lemma OpacityAcceptance(v: PyValue)
    ensures v.PyInt? ==> (OpacityPasses(v) <==> 0 <= v.i <= 1)
    ensures v.PyFloat? && v.f.Finite? ==> (OpacityPasses(v) <==> 0.0 <= v.f.value <= 1.0)
    ensures v.PyFloat? && v.f.Inf? ==> !OpacityPasses(v)
    ensures v == PyFloat(NaN) ==> OpacityPasses(v)
    ensures v.PyBool? ==> OpacityPasses(v)
    ensures v.PyStr? || v.PyNone? ==> !OpacityPasses(v)
  {
  }

  /** `int(float(opacity) * float(255))`: the alpha level of the template layer. */
  function OpacityLevel(v: PyValue): (r: Result<int, PyException>)
    requires IsNumber(v)
    ensures FloatOf(v).Finite? && 0.0 <= FloatOf(v).value ==>
              r.Ok? && r.value as real <= FloatOf(v).value * 255.0 < r.value as real + 1.0
    ensures OpacityPasses(v) && FloatOf(v).Finite? ==> r.Ok? && 0 <= r.value <= 255
    ensures FloatOf(v) == NaN ==> r == Err(ValueError)
  {
    match FloatOf(v)
    case Finite(x) => Ok(Trunc(x * 255.0))
    case NaN => Err(ValueError)
    case Inf(_) => Err(OverflowError)
  }

  /** `int(opacity * 255)` truncates: 1 gives 255, 0.5 gives 127 (not 128), 0 gives 0. */
  lemma OpacityExamples()
    ensures OpacityLevel(PyInt(1)) == Ok(255)
    ensures OpacityLevel(PyFloat(Finite(1.0))) == Ok(255)
    ensures OpacityLevel(PyFloat(Finite(0.5))) == Ok(127)
    ensures OpacityLevel(PyFloat(Finite(0.0))) == Ok(0)
  {
  }

  // ---------------------------------------------------------------- template

  /** Python truthiness of a finder's answer: nothing found, or an empty path, is false. */
  predicate Truthy(found: Option<string>) {
    found.Some? && found.value != ""
  }

  /** `_check_template_exists`: the file-system finder first, the app-directories finder as fallback. */
  function FindTemplate(env: Env, name: string): (r: Result<string, MarkerError>)
    ensures Truthy(env.fileSystemFinder(name)) ==> r == Ok(env.fileSystemFinder(name).value)
    ensures !Truthy(env.fileSystemFinder(name)) && Truthy(env.appDirectoriesFinder(name)) ==>
              r == Ok(env.appDirectoriesFinder(name).value)
    ensures !Truthy(env.fileSystemFinder(name)) && !Truthy(env.appDirectoriesFinder(name)) ==>
              r == Err(InvalidTemplate(TemplateMessage(name)))
  {
    var found := env.fileSystemFinder(name);
    var found := if Truthy(found) then found else env.appDirectoriesFinder(name);
    if Truthy(found) then Ok(found.value) else Err(InvalidTemplate(TemplateMessage(name)))
  }

  /** `MEDIA_ROOT/cache/markers`. */
  function CacheDir(env: Env): string {
    Strings.PathJoin(Strings.PathJoin(env.mediaRoot, "cache"), "markers")
  }

  /** `MEDIA_ROOT/cache/markers/<key>.png`: where the finished marker is cached. */
  function CachePath(env: Env, key: string): string {
    Strings.PathJoin(CacheDir(env), key + ".png")
  }

  /** The text hashed to name the colourised copy of a template: `"<name>-<hue>"`. */
  function WorkspaceKeyText(name: string, hue: int): string {
    name + "-" + IntToDecimal(hue)
  }

  /** `MEDIA_ROOT/cache/markers/_workspace/<md5("<name>-<hue>")>.png`. */
  function WorkspacePath(env: Env, name: string, hue: int): string {
    Strings.PathJoin(Strings.PathJoin(CacheDir(env), "_workspace"),
                     env.md5Hex(WorkspaceKeyText(name, hue)) + ".png")
  }

  /**
   `_build_template_from_rgb`: resolve the template, open it, replace its hue,
   and save the result in the workspace, overwriting any earlier copy.
   Encoding the hashed text as ASCII fails for a name outside ASCII.
   */
  function BuildTemplateFromRgb(env: Env, fs: Store, name: string, hue: int): (r: (Result<string, MarkerError>, Store))
    ensures r.0.Ok? ==> r.0.value == WorkspacePath(env, name, hue)
    ensures r.0.Ok? ==> FindTemplate(env, name).Ok? && Open(fs, FindTemplate(env, name).value).Some?
    ensures r.0.Ok? ==> r.1 == fs[r.0.value := PngFile(Colourize(env.shiftHue, Open(fs, FindTemplate(env, name).value).value, hue))]
    ensures r.0.Err? ==> r.1 == fs
    ensures r.0.Ok? <==> FindTemplate(env, name).Ok? && Open(fs, FindTemplate(env, name).value).Some? && Strings.IsAscii(name)
    ensures FindTemplate(env, name).Err? ==> r.0 == FindTemplate(env, name)
    ensures FindTemplate(env, name).Ok? && Open(fs, FindTemplate(env, name).value).None? ==> r.0 == Err(Uncaught(IOError))
    ensures FindTemplate(env, name).Ok? && Open(fs, FindTemplate(env, name).value).Some? && !Strings.IsAscii(name) ==>
              r.0 == Err(Uncaught(UnicodeEncodeError))
  {
    match FindTemplate(env, name)
    case Err(e) => (Err(e), fs)
    case Ok(found) =>
      match Open(fs, found)
      case None => (Err(Uncaught(IOError)), fs)
      case Some(img) =>
        var coloured := Colourize(env.shiftHue, img, hue);
        if !Strings.IsAscii(name) then (Err(Uncaught(UnicodeEncodeError)), fs)
        else
          var path := WorkspacePath(env, name, hue);
          (Ok(path), fs[path := PngFile(coloured)])
  }

  /** `re.match(r"^(.*)\.(\w+)$", path)` with `\w` taken over ASCII. */
  predicate IsWordChar(c: char) {
    'a' <= c <= 'z' || 'A' <= c <= 'Z' || '0' <= c <= '9' || c == '_'
  }

  predicate IsWord(s: string) {
    |s| > 0 && forall i :: 0 <= i < |s| ==> IsWordChar(s[i])
  }

  /** The index of the last `c` in `s`. */
  function LastIndexOf(s: string, c: char): (r: Option<nat>)
    ensures r.Some? ==> r.value < |s| && s[r.value] == c && c !in s[r.value + 1..]
    ensures r.None? ==> c !in s
  {
    if s == [] then None
    else if s[|s| - 1] == c then Some(|s| - 1)
    else LastIndexOf(s[..|s| - 1], c)
  }

  /**
   `_check_template_filename`: the name and the extension either side of the
   last dot. `.` does not cross a newline; `$` also matches before a final newline.
   */
  function CheckTemplateFilename(path: string): Result<(string, string), MarkerError> {
    var body := if |path| > 0 && path[|path| - 1] == '\n' then path[..|path| - 1] else path;
    match LastIndexOf(body, '.')
    case Some(d) =>
      if '\n' !in body[..d] && IsWord(body[d + 1..]) then Ok((body[..d], body[d + 1..]))
      else Err(InvalidTemplate(FilenameMessage))
    case None => Err(InvalidTemplate(FilenameMessage))
  }

  /** A name and an extension joined by a dot split back into the same two parts. */
  lemma {:induction false} FilenameRoundTrip(name: string, ext: string, trailingNewline: bool)
    requires '\n' !in name && IsWord(ext)
    ensures CheckTemplateFilename(name + "." + ext + (if trailingNewline then "\n" else "")) == Ok((name, ext))
  {
    var body := name + "." + ext;
    var path := body + (if trailingNewline then "\n" else "");
    assert (if |path| > 0 && path[|path| - 1] == '\n' then path[..|path| - 1] else path) == body by {
      assert path[|path| - 1] == (if trailingNewline then '\n' else ext[|ext| - 1]);
      if trailingNewline {
        assert path[..|path| - 1] == body;
      }
    }
    var d := |name|;
    assert body[d] == '.';
    assert '.' !in body[d + 1..] by {
      assert body[d + 1..] == ext;
    }
    LastIndexUnique(body, '.', d);
    assert body[..d] == name && body[d + 1..] == ext;
  }

  lemma LastIndexUnique(s: string, c: char, d: nat)
    requires d < |s| && s[d] == c && c !in s[d + 1..]
    ensures LastIndexOf(s, c) == Some(d)
  {
    var r := LastIndexOf(s, c);
    assert r.Some? by {
      assert s[d] == c;
    }
  }

  /** Whatever the check accepts is a name, a dot and a word extension, perhaps with a final newline. */
  lemma FilenameSound(path: string)
    requires CheckTemplateFilename(path).Ok?
    ensures var (name, ext) := CheckTemplateFilename(path).value;
            '\n' !in name && IsWord(ext) &&
            (path == name + "." + ext || path == name + "." + ext + "\n")
  {
    var newline := |path| > 0 && path[|path| - 1] == '\n';
    var body := if newline then path[..|path| - 1] else path;
    var d := LastIndexOf(body, '.').value;
    assert CheckTemplateFilename(path).value == (body[..d], body[d + 1..]);
    DotSplit(body, d);
    if newline {
      NewlineSplit(path);
    }
  }

  /** A text is what comes before the dot at `d`, the dot, and what comes after. */
  lemma DotSplit(s: string, d: nat)
    requires d < |s| && s[d] == '.'
    ensures s == s[..d] + "." + s[d + 1..]
  {
    assert s == s[..d] + [s[d]] + s[d + 1..];
  }

  /** A text ending in a newline is what comes before it and the newline. */
  lemma NewlineSplit(s: string)
    requires |s| > 0 && s[|s| - 1] == '\n'
    ensures s == s[..|s| - 1] + "\n"
  {
  }

  // ---------------------------------------------------------------- key

  /** `"%s" % list(text_position)`. */
  function PositionText(p: (PyValue, PyValue), floatRepr: Float -> string): string {
    "[" + Repr(p.0, floatRepr) + ", " + Repr(p.1, floatRepr) + "]"
  }

  /** The seven fields of the cache key in their fixed order, each as `%s` writes it. */
  function KeyFields(floatRepr: Float -> string, template: string, hue: int, opacity: int, text: string,
                     position: (PyValue, PyValue), textSize: PyValue, colour: string): (f: seq<string>)
    ensures |f| == 7
  {
    [template, IntToDecimal(hue), IntToDecimal(opacity), text,
     PositionText(position, floatRepr), Str(textSize, floatRepr), colour]
  }

  /** `"%s-%s-%s-%s-%s-%s-%s"` over the key fields: the text hashed into the cache key. */
  function KeyText(floatRepr: Float -> string, template: string, hue: int, opacity: int, text: string,
                   position: (PyValue, PyValue), textSize: PyValue, colour: string): string
  {
    Strings.DashJoin(KeyFields(floatRepr, template, hue, opacity, text, position, textSize, colour))
  }

  /** The key text of a constructed marker. */
  function MarkerKeyText(env: Env, m: Marker): string {
    KeyText(env.floatRepr, m.template, m.hue, m.opacity, m.text, m.textPosition, m.textSize, m.textColour)
  }

  // ---------------------------------------------------------------- construction

  /** The three value checks in the constructor's order: hue, then text colour, then opacity. */
  function CheckValues(a: MarkerArgs): (r: Result<(int, string), MarkerError>)
    ensures r.Ok? <==> HueAccepted(a.hue) && CheckColour(a.textColour).Ok? && OpacityPasses(a.opacity)
    ensures r.Ok? ==> r.value == (IntOf(a.hue).value, a.textColour.s)
    ensures !HueAccepted(a.hue) ==> r == Err(CheckHue(a.hue).error)
    ensures HueAccepted(a.hue) && CheckColour(a.textColour).Err? ==> r == Err(CheckColour(a.textColour).error)
    ensures HueAccepted(a.hue) && CheckColour(a.textColour).Ok? && !OpacityPasses(a.opacity) ==>
              r == Err(InvalidOpacity(OpacityMessage))
  {
    match CheckHue(a.hue)
    case Err(e) => Err(e)
    case Ok(hue) =>
      match CheckColour(a.textColour)
      case Err(e) => Err(e)
      case Ok(colour) => if OpacityPasses(a.opacity) then Ok((hue, colour)) else Err(InvalidOpacity(OpacityMessage))
  }

  /** The template the marker is built on: the colourised workspace copy for a non-zero hue, the resolved template for hue 0. */
  function SelectTemplate(env: Env, fs: Store, name: string, hue: int): (r: (Result<string, MarkerError>, Store))
    ensures FindTemplate(env, name).Err? ==> r == (FindTemplate(env, name), fs)
    ensures r.0.Err? ==> r.1 == fs
    ensures r.0.Ok? ==> FindTemplate(env, name).Ok? &&
                        r.0.value == (if hue != 0 then WorkspacePath(env, name, hue) else FindTemplate(env, name).value)
    ensures hue == 0 ==> r == (FindTemplate(env, name), fs)
    ensures hue != 0 ==> r == BuildTemplateFromRgb(env, fs, name, hue)
    ensures hue != 0 ==>
              (r.0.Ok? <==> FindTemplate(env, name).Ok? && Open(fs, FindTemplate(env, name).value).Some? && Strings.IsAscii(name))
    ensures r.0.Ok? && hue != 0 ==>
              && Open(fs, FindTemplate(env, name).value).Some?
              && r.1 == fs[r.0.value := PngFile(Colourize(env.shiftHue, Open(fs, FindTemplate(env, name).value).value, hue))]
  {
    if hue != 0 then BuildTemplateFromRgb(env, fs, name, hue) else (FindTemplate(env, name), fs)
  }

  /** The last step of construction: the opacity level, the stored fields and the key. */
  function Assemble(env: Env, a: MarkerArgs, hue: int, colour: string, path: string): (r: Result<Marker, MarkerError>)
    requires OpacityPasses(a.opacity)
    ensures r.Err? ==> r.error.Uncaught?
    ensures r.Ok? <==> FloatOf(a.opacity).Finite?
    ensures FloatOf(a.opacity) == NaN ==> r == Err(Uncaught(ValueError))
    ensures r.Ok? ==>
              var m := r.value;
              && m.hue == hue && m.template == path && m.textColour == colour
              && m.opacity as real <= FloatOf(a.opacity).value * 255.0 < m.opacity as real + 1.0
              && m.text == a.text && m.textPosition == a.textPosition && m.textSize == a.textSize
              && m.key == env.md5Hex(MarkerKeyText(env, m))
  {
    match OpacityLevel(a.opacity)
    case Err(x) => Err(Uncaught(x))
    case Ok(level) =>
      var key := env.md5Hex(KeyText(env.floatRepr, path, hue, level, a.text, a.textPosition, a.textSize, colour));
      Ok(Marker(path, hue, level, a.text, a.textPosition, a.textSize, colour, key))
  }

  /**
   `Marker.__init__`: hue, then colour, then opacity, then the template; then
   the opacity level and the key. The store changes only when a colourised
   template is written to the workspace.
   */
  function Construct(env: Env, fs: Store, a: MarkerArgs): (r: (Result<Marker, MarkerError>, Store))
    ensures !HueAccepted(a.hue) ==> r == (Err(CheckHue(a.hue).error), fs)
    ensures HueAccepted(a.hue) && CheckColour(a.textColour).Err? ==>
              r.0 == Err(CheckColour(a.textColour).error) && r.1 == fs
    ensures HueAccepted(a.hue) && CheckColour(a.textColour).Ok? && !OpacityPasses(a.opacity) ==>
              r.0 == Err(InvalidOpacity(OpacityMessage)) && r.1 == fs
    ensures HueAccepted(a.hue) && CheckColour(a.textColour).Ok? && OpacityPasses(a.opacity) &&
            FindTemplate(env, a.template).Err? ==>
              r.0 == Err(InvalidTemplate(TemplateMessage(a.template))) && r.1 == fs
    ensures r.0.Ok? ==>
              && HueAccepted(a.hue) && CheckColour(a.textColour).Ok? && OpacityPasses(a.opacity)
              && FindTemplate(env, a.template).Ok?
    ensures r.0.Ok? ==>
              var m := r.0.value;
              && m.hue == IntOf(a.hue).value
              && FloatOf(a.opacity).Finite?
              && m.opacity as real <= FloatOf(a.opacity).value * 255.0 < m.opacity as real + 1.0
              && m.text == a.text && m.textPosition == a.textPosition && m.textSize == a.textSize
              && m.textColour == a.textColour.s
              && m.template == (if m.hue != 0 then WorkspacePath(env, a.template, m.hue)
                                else FindTemplate(env, a.template).value)
              && m.key == env.md5Hex(MarkerKeyText(env, m))
    ensures r.0.Ok? <==>
              && CheckValues(a).Ok? && FindTemplate(env, a.template).Ok? && FloatOf(a.opacity).Finite?
              && (IntOf(a.hue).value == 0 ||
                  (Open(fs, FindTemplate(env, a.template).value).Some? && Strings.IsAscii(a.template)))
    ensures r.0.Err? && !r.0.error.Uncaught? ==> r.1 == fs
    ensures CheckValues(a).Ok? ==>
              var s := SelectTemplate(env, fs, a.template, CheckValues(a).value.0);
              && r.1 == s.1
              && (s.0.Err? ==> r.0 == Err(s.0.error))
              && (s.0.Ok? && FloatOf(a.opacity) == NaN ==> r.0 == Err(Uncaught(ValueError)))
    ensures r.0.Ok? && r.0.value.hue == 0 ==> r.1 == fs
    ensures r.0.Ok? && r.0.value.hue != 0 ==>
              && r.1.Keys == fs.Keys + {r.0.value.template}
              && Open(fs, FindTemplate(env, a.template).value).Some?
              && r.1 == fs[r.0.value.template := PngFile(Colourize(env.shiftHue, Open(fs, FindTemplate(env, a.template).value).value, r.0.value.hue))]
  {
    match CheckValues(a)
    case Err(e) => (Err(e), fs)
    case Ok((hue, colour)) =>
      var (template, fs1) := SelectTemplate(env, fs, a.template, hue);
      match template
      case Err(e) => (Err(e), fs1)
      case Ok(path) => (Assemble(env, a, hue, colour, path), fs1)
  }

  // ---------------------------------------------------------------- rendering

  /**
   Auto-centring: an unset coordinate becomes `(canvas - text) / 2` (true
   division, so a float); a supplied coordinate is kept as it is.
   */
  function Centre(p: (PyValue, PyValue), width: int, height: int, textWidth: int, textHeight: int): (PyValue, PyValue) {
    (if p.0.PyNone? then PyFloat(Finite((width - textWidth) as real / 2.0)) else p.0,
     if p.1.PyNone? then PyFloat(Finite((height - textHeight) as real / 2.0)) else p.1)
  }

  /**
   A freshly rendered marker: the template blended at the uniform opacity onto
   a transparent canvas of its size, then the text overlay pasted through its
   own alpha. Opening the template, drawing the text and reading the fill colour
   can each raise.
   */
  function Render(env: Env, fs: Store, m: Marker): Result<Image, PyException> {
    match Open(fs, m.template)
    case None => Err(IOError)
    case Some(template) =>
      var width := Width(template);
      var height := Height(template);
      var base := env.paste(Filled(width, height, Rgba(Black, 0)), template, FilledGrey(width, height, m.opacity));
      var (textWidth, textHeight) := env.measureText(m.text);
      var (x, y) := Centre(m.textPosition, width, height, textWidth, textHeight);
      match env.drawText(x, y, Strings.Escape(m.text), m.textSize, width, height)
      case None => Err(TypeError)
      case Some(textImage) =>
        match HexToRgb(m.textColour)
        case None => Err(ValueError)
        case Some(fill) =>
          var (overlay, alpha) := TextLayer(textImage, fill);
          Ok(env.paste(base, overlay, alpha))
  }

  /** The image `Image.open` returns: its pixels and the file name it was read from. */
  datatype Opened = Opened(filename: string, image: Image)

  /**
   `_get_marker`: open the cached file; if that fails, render, save under the
   key (directory creation never fails the call) and open the saved file.
   */
  function GetMarker(env: Env, fs: Store, m: Marker): (r: (Result<Opened, PyException>, Store))
    ensures Open(fs, CachePath(env, m.key)).Some? ==>
              r == (Ok(Opened(CachePath(env, m.key), Open(fs, CachePath(env, m.key)).value)), fs)
    ensures Open(fs, CachePath(env, m.key)).None? && Render(env, fs, m).Ok? ==>
              r.0 == Ok(Opened(CachePath(env, m.key), Render(env, fs, m).value)) &&
              r.1 == fs[CachePath(env, m.key) := PngFile(Render(env, fs, m).value)]
    ensures Open(fs, CachePath(env, m.key)).None? && Render(env, fs, m).Err? ==>
              r == (Err(Render(env, fs, m).error), fs)
    ensures r.0.Ok? ==> r.0.value.filename == CachePath(env, m.key) &&
                        Open(r.1, CachePath(env, m.key)) == Some(r.0.value.image)
  {
    var path := CachePath(env, m.key);
    match Open(fs, path)
    case Some(img) => (Ok(Opened(path, img)), fs)
    case None =>
      match Render(env, fs, m)
      case Err(e) => (Err(e), fs)
      case Ok(img) =>
        var saved := fs[path := PngFile(img)];
        (Ok(Opened(path, Open(saved, path).value)), saved)
  }

  /** `get_marker_url`: the cached file's name with every occurrence of MEDIA_ROOT replaced by MEDIA_URL. */
  function MarkerUrl(env: Env, fs: Store, m: Marker): (r: (Result<string, PyException>, Store))
    ensures r.1 == GetMarker(env, fs, m).1
    ensures r.0.Ok? <==> GetMarker(env, fs, m).0.Ok?
    ensures r.0.Ok? ==> r.0.value == Strings.ReplaceAll(CachePath(env, m.key), env.mediaRoot, env.mediaUrl)
  {
    var (fetched, fs') := GetMarker(env, fs, m);
    match fetched
    case Ok(o) => (Ok(Strings.ReplaceAll(o.filename, env.mediaRoot, env.mediaUrl)), fs')
    case Err(e) => (Err(e), fs')
  }

  // ---------------------------------------------------------------- properties

  /** The constructor's defaults give hue 0, full opacity and the key text spelled out below. */
  lemma ConstructDefaults(env: Env, fs: Store, name: string)
    requires FindTemplate(env, name).Ok?
    ensures var (r, fs') := Construct(env, fs, DefaultArgs(name));
            && fs' == fs && r.Ok?
            && r.value.template == FindTemplate(env, name).value
            && r.value.hue == 0 && r.value.opacity == 255
            && MarkerKeyText(env, r.value) == FindTemplate(env, name).value + "-" + "0-255--[None, None]-10-000000"
  {
    DefaultsConstructed(env, fs, name);
    DefaultKeyText(env.floatRepr, FindTemplate(env, name).value);
  }

  /**
   A NaN opacity passes the range check and fails only at `int(opacity * 255)`,
   after a non-zero hue has already written the recoloured template: the call
   raises ValueError and the workspace file stays behind.
   */
  lemma NanOpacityKeepsWorkspace(env: Env, fs: Store, a: MarkerArgs)
    requires HueAccepted(a.hue) && IntOf(a.hue).value != 0 && CheckColour(a.textColour).Ok?
    requires a.opacity == PyFloat(NaN)
    requires FindTemplate(env, a.template).Ok? && Open(fs, FindTemplate(env, a.template).value).Some?
    requires Strings.IsAscii(a.template)
    ensures var (r, fs') := Construct(env, fs, a);
            var path := WorkspacePath(env, a.template, IntOf(a.hue).value);
            && r == Err(Uncaught(ValueError))
            && path in fs'
            && fs' == fs[path := PngFile(Colourize(env.shiftHue, Open(fs, FindTemplate(env, a.template).value).value, IntOf(a.hue).value))]
  {
  }

  lemma DefaultsConstructed(env: Env, fs: Store, name: string)
    requires FindTemplate(env, name).Ok?
    ensures var found := FindTemplate(env, name).value;
            Construct(env, fs, DefaultArgs(name)) ==
            (Ok(Marker(found, 0, 255, "", (PyNone, PyNone), PyInt(10), "000000",
                       env.md5Hex(KeyText(env.floatRepr, found, 0, 255, "", (PyNone, PyNone), PyInt(10), "000000")))), fs)
  {
    HueIntRange(0);
    ColourAccepted("000000");
    OpacityExamples();
  }

  lemma DefaultKeyText(fr: Float -> string, found: string)
    ensures KeyText(fr, found, 0, 255, "", (PyNone, PyNone), PyInt(10), "000000") == found + "-" + "0-255--[None, None]-10-000000"
  {
    DecimalExamples();
    var f := KeyFields(fr, found, 0, 255, "", (PyNone, PyNone), PyInt(10), "000000");
    assert PositionText((PyNone, PyNone), fr) == "[None, None]" by {
      assert "[" + "None" + ", " + "None" + "]" == "[None, None]";
    }
    assert f == [found, "0", "255", "", "[None, None]", "10", "000000"];
    DashJoinStep(f);
    DefaultKeyTail(f[1..]);
  }

  /** The six fields after the template, with the defaults, joined. */
  lemma DefaultKeyTail(f: seq<string>)
    requires f == ["0", "255", "", "[None, None]", "10", "000000"]
    ensures Strings.DashJoin(f) == "0-255--[None, None]-10-000000"
  {
    DashJoinStep(f);
    DashJoinStep(f[1..]);
    assert f[1..][1..] == f[2..];
    DashJoinFour(f[2..]);
    JoinDefaultFields();
  }

  /** The six default fields after the template, joined with dashes, as one text. */
  lemma JoinDefaultFields()
    ensures "0" + "-" + ("255" + "-" + ("" + "-" + ("[None, None]" + "-" + ("10" + "-" + "000000")))) ==
            "0-255--[None, None]-10-000000"
  {
    JoinTextToColourFields();
    JoinOpacityField();
    JoinHueField();
  }

  /** Several bad fields at once: the hue is checked first, so its error is the one reported. */
  lemma HueCheckedFirst(env: Env, fs: Store, a: MarkerArgs)
    requires a.hue == PyInt(361) && a.textColour == PyStr("GGGGGG") && a.opacity == PyStr("x")
    ensures Construct(env, fs, a) == (Err(InvalidHue(HueMessage)), fs)
  {
    HueIntRange(361);
  }

  lemma DecimalExamples()
    ensures IntToDecimal(0) == "0" && IntToDecimal(10) == "10" && IntToDecimal(255) == "255"
  {
    assert NatToDecimal(255) == NatToDecimal(25) + "5";
    assert NatToDecimal(25) == NatToDecimal(2) + "5";
    assert NatToDecimal(10) == NatToDecimal(1) + "0";
  }

  lemma DashJoinStep(f: seq<string>)
    requires |f| >= 2
    ensures Strings.DashJoin(f) == f[0] + "-" + Strings.DashJoin(f[1..])
  {
  }

  /** Four fields joined by dashes, written out. */
  lemma DashJoinFour(f: seq<string>)
    requires |f| == 4
    ensures Strings.DashJoin(f) == f[0] + "-" + (f[1] + "-" + (f[2] + "-" + f[3]))
  {
    DashJoinStep(f);
    DashJoinStep(f[1..]);
    assert f[1..][1..] == f[2..];
    DashJoinStep(f[2..]);
    assert f[2..][1..] == f[3..];
  }

  /**
   Two key texts for the same template agree on hue and opacity: those fields
   are dash-free numerals, so the dashes around them cannot be confused with
   dashes inside the other fields.
   */
  lemma KeyTextSeparatesHueAndOpacity(fr: Float -> string, template: string,
                                      hue1: nat, opacity1: nat, text1: string, p1: (PyValue, PyValue), size1: PyValue, colour1: string,
                                      hue2: nat, opacity2: nat, text2: string, p2: (PyValue, PyValue), size2: PyValue, colour2: string)
    requires KeyText(fr, template, hue1, opacity1, text1, p1, size1, colour1) ==
             KeyText(fr, template, hue2, opacity2, text2, p2, size2, colour2)
    ensures hue1 == hue2 && opacity1 == opacity2
  {
    var f1 := KeyFields(fr, template, hue1, opacity1, text1, p1, size1, colour1);
    var f2 := KeyFields(fr, template, hue2, opacity2, text2, p2, size2, colour2);
    Strings.DashJoinSameHead(f1, f2);
    assert f1[1..][0] == IntToDecimal(hue1) && f2[1..][0] == IntToDecimal(hue2);
    Strings.DashJoinDashFreeHead(f1[1..], f2[1..]);
    assert f1[1..][1..] == f1[2..] && f2[1..][1..] == f2[2..];
    assert f1[2..][0] == IntToDecimal(opacity1) && f2[2..][0] == IntToDecimal(opacity2);
    Strings.DashJoinDashFreeHead(f1[2..], f2[2..]);
    DecimalInjective(hue1, hue2);
    DecimalInjective(opacity1, opacity2);
  }

  /** Two markers that differ only in their text have different key texts. */
  lemma KeyTextSeparatesText(fr: Float -> string, template: string, hue: int, opacity: int,
                             text1: string, text2: string, p: (PyValue, PyValue), size: PyValue, colour: string)
    requires text1 != text2
    ensures KeyText(fr, template, hue, opacity, text1, p, size, colour) !=
            KeyText(fr, template, hue, opacity, text2, p, size, colour)
  {
    var f1 := KeyFields(fr, template, hue, opacity, text1, p, size, colour);
    var f2 := KeyFields(fr, template, hue, opacity, text2, p, size, colour);
    if Strings.DashJoin(f1) == Strings.DashJoin(f2) {
      Strings.DashJoinSameHead(f1, f2);
      assert f1[1..][1..] == f1[2..] && f2[1..][1..] == f2[2..];
      Strings.DashJoinSameHead(f1[1..], f2[1..]);
      assert f1[2..][1..] == f1[3..] && f2[2..][1..] == f2[3..];
      Strings.DashJoinSameHead(f1[2..], f2[2..]);
      assert f1[3..][1..] == f2[3..][1..];
      Strings.DashJoinSameTail(f1[3..], f2[3..]);
      assert false;
    }
  }

  /**
   The key text is not injective: a dash inside the template path or the text
   lets two different markers share one key text, and hence one cached file.
   */
  lemma KeyTextNotInjective(fr: Float -> string)
    ensures KeyText(fr, "p", 0, 255, "0-255-x", (PyNone, PyNone), PyInt(10), "000000") ==
            KeyText(fr, "p-0-255", 0, 255, "x", (PyNone, PyNone), PyInt(10), "000000")
  {
    DecimalExamples();
    var position := PositionText((PyNone, PyNone), fr);
    assert KeyFields(fr, "p", 0, 255, "0-255-x", (PyNone, PyNone), PyInt(10), "000000") ==
           ["p", "0", "255", "0-255-x", position, "10", "000000"];
    assert KeyFields(fr, "p-0-255", 0, 255, "x", (PyNone, PyNone), PyInt(10), "000000") ==
           ["p-0-255", "0", "255", "x", position, "10", "000000"];
    DashesCollide(position);
  }

  lemma DashesCollide(position: string)
    ensures Strings.DashJoin(["p", "0", "255", "0-255-x", position, "10", "000000"]) ==
            Strings.DashJoin(["p-0-255", "0", "255", "x", position, "10", "000000"])
  {
    var tail := [position, "10", "000000"];
    SplitTextFieldFirstDash(tail);
    SplitTextFieldSecondDash(tail);
    SplitTemplateFieldFirstDash(tail);
    SplitTemplateFieldSecondDash(tail);
    assert ["p", "0", "255", "0-255-x"] + tail == ["p", "0", "255", "0-255-x", position, "10", "000000"];
    assert ["p-0-255", "0", "255", "x"] + tail == ["p-0-255", "0", "255", "x", position, "10", "000000"];
  }

  /** Splitting the field `whole` at a dash leaves the join unchanged. */
  lemma SplitAt(pre: seq<string>, whole: string, a: string, b: string, post: seq<string>,
                f: seq<string>, g: seq<string>)
    requires whole == a + "-" + b && f == pre + [whole] + post && g == pre + [a, b] + post
    ensures Strings.DashJoin(f) == Strings.DashJoin(g)
  {
    Strings.DashJoinSplitField(pre, a, b, post);
  }

  /** In the key of the collision example, the text field `0-255-x` split at its first dash. */
  lemma SplitTextFieldFirstDash(tail: seq<string>)
    ensures Strings.DashJoin(["p", "0", "255", "0-255-x"] + tail) == Strings.DashJoin(["p", "0", "255", "0", "255-x"] + tail)
  {
    assert "0-255-x" == "0" + "-" + "255-x";
    SplitAt(["p", "0", "255"], "0-255-x", "0", "255-x", tail,
            ["p", "0", "255", "0-255-x"] + tail, ["p", "0", "255", "0", "255-x"] + tail);
  }

  /** The rest of that text field, `255-x`, split at its dash. */
  lemma SplitTextFieldSecondDash(tail: seq<string>)
    ensures Strings.DashJoin(["p", "0", "255", "0", "255-x"] + tail) == Strings.DashJoin(["p", "0", "255", "0", "255", "x"] + tail)
  {
    assert "255-x" == "255" + "-" + "x";
    SplitAt(["p", "0", "255", "0"], "255-x", "255", "x", tail,
            ["p", "0", "255", "0", "255-x"] + tail, ["p", "0", "255", "0", "255", "x"] + tail);
  }

  /** The template field `p-0-255` split at its first dash. */
  lemma SplitTemplateFieldFirstDash(tail: seq<string>)
    ensures Strings.DashJoin(["p-0-255", "0", "255", "x"] + tail) == Strings.DashJoin(["p", "0-255", "0", "255", "x"] + tail)
  {
    assert "p-0-255" == "p" + "-" + "0-255";
    SplitAt([], "p-0-255", "p", "0-255", ["0", "255", "x"] + tail,
            ["p-0-255", "0", "255", "x"] + tail, ["p", "0-255", "0", "255", "x"] + tail);
  }

  /** The rest of that template field, `0-255`, split at its dash. */
  lemma SplitTemplateFieldSecondDash(tail: seq<string>)
    ensures Strings.DashJoin(["p", "0-255", "0", "255", "x"] + tail) == Strings.DashJoin(["p", "0", "255", "0", "255", "x"] + tail)
  {
    assert "0-255" == "0" + "-" + "255";
    SplitAt(["p"], "0-255", "0", "255", ["0", "255", "x"] + tail,
            ["p", "0-255", "0", "255", "x"] + tail, ["p", "0", "255", "0", "255", "x"] + tail);
  }

  /**
   Two requests for the same template and the same non-zero hue use the same
   colourised workspace copy, whatever their opacity, text or colour, and leave
   the same image in it.
   */
  lemma WorkspaceSharedAcrossVariants(env: Env, fs: Store, a1: MarkerArgs, a2: MarkerArgs)
    requires a1.template == a2.template
    requires Construct(env, fs, a1).0.Ok? && Construct(env, fs, a2).0.Ok?
    requires Construct(env, fs, a1).0.value.hue == Construct(env, fs, a2).0.value.hue != 0
    ensures var m1, m2 := Construct(env, fs, a1).0.value, Construct(env, fs, a2).0.value;
            && m1.template == m2.template == WorkspacePath(env, a1.template, m1.hue)
            && Construct(env, fs, a1).1[m1.template] == Construct(env, fs, a2).1[m2.template]
  {
  }

  /**
   An unset coordinate is placed so that the margins either side of the text are
   equal; a supplied coordinate is left as it was.
   */
  lemma CentreBalancesMargins(p: (PyValue, PyValue), width: int, height: int, textWidth: int, textHeight: int)
    ensures var c := Centre(p, width, height, textWidth, textHeight);
            && (p.0.PyNone? ==> c.0.PyFloat? && c.0.f.Finite? &&
                                c.0.f.value == (width - textWidth) as real - c.0.f.value)
            && (p.1.PyNone? ==> c.1.PyFloat? && c.1.f.Finite? &&
                                c.1.f.value == (height - textHeight) as real - c.1.f.value)
            && (!p.0.PyNone? ==> c.0 == p.0)
            && (!p.1.PyNone? ==> c.1 == p.1)
  {
  }

  /** A 40 by 10 text on a 200 by 100 canvas is placed at (80, 45). */
  lemma CentreExample()
    ensures Centre((PyNone, PyNone), 200, 100, 40, 10) == (PyFloat(Finite(80.0)), PyFloat(Finite(45.0)))
    ensures Centre((PyInt(3), PyNone), 200, 100, 40, 10) == (PyInt(3), PyFloat(Finite(45.0)))
  {
  }

  /** Once a marker has been fetched, fetching it again is a cache hit that changes nothing. */
  lemma GetMarkerIdempotent(env: Env, fs: Store, m: Marker)
    requires GetMarker(env, fs, m).0.Ok?
    ensures GetMarker(env, GetMarker(env, fs, m).1, m) == GetMarker(env, fs, m)
  {
  }

  /** A miss adds exactly one file, the marker's cache file, and leaves every other path alone. */
  lemma GetMarkerAddsOnlyItsFile(env: Env, fs: Store, m: Marker)
    requires Open(fs, CachePath(env, m.key)).None?
    ensures var fs' := GetMarker(env, fs, m).1;
            && fs'.Keys <= fs.Keys + {CachePath(env, m.key)}
            && forall path :: path in fs && path != CachePath(env, m.key) ==> path in fs' && fs'[path] == fs[path]
  {
  }

  lemma CachePathUnderRoot(env: Env, key: string)
    requires |key| == 0 || key[0] != '/'
    ensures |CachePath(env, key)| >= |env.mediaRoot|
    ensures CachePath(env, key)[..|env.mediaRoot|] == env.mediaRoot
  {
    var cache := Strings.PathJoin(env.mediaRoot, "cache");
    var dir := CacheDir(env);
    var path := CachePath(env, key);
    assert (key + ".png")[0] != '/';
    assert path[..|dir|] == dir && dir[..|cache|] == cache && cache[..|env.mediaRoot|] == env.mediaRoot;
    assert path[..|env.mediaRoot|] == dir[..|cache|][..|env.mediaRoot|];
  }

  /** MEDIA_ROOT followed by one separator, unless it is empty or already ends in one. */
  function RootPrefix(root: string): string {
    if root == [] || root[|root| - 1] == '/' then root else root + "/"
  }

  /** The cache file is `cache/markers/<key>.png` under MEDIA_ROOT, with exactly one separator after the root. */
  lemma CachePathSpelled(env: Env, key: string)
    requires |key| == 0 || key[0] != '/'
    ensures CachePath(env, key) == RootPrefix(env.mediaRoot) + "cache/markers/" + key + ".png"
  {
    var p := RootPrefix(env.mediaRoot);
    CacheDirSpelled(env);
    assert (key + ".png")[0] != '/';
    AppendSegment(p, "cache/markers", key + ".png");
    Regroup(p, "cache/markers", key, ".png");
    CacheDirSlash();
  }

  /** The colourised copy is `cache/markers/_workspace/<digest>.png` under MEDIA_ROOT. */
  lemma WorkspacePathSpelled(env: Env, name: string, hue: int)
    requires var digest := env.md5Hex(WorkspaceKeyText(name, hue)); |digest| == 0 || digest[0] != '/'
    ensures WorkspacePath(env, name, hue) ==
            RootPrefix(env.mediaRoot) + "cache/markers/_workspace/" + env.md5Hex(WorkspaceKeyText(name, hue)) + ".png"
  {
    var p := RootPrefix(env.mediaRoot);
    var digest := env.md5Hex(WorkspaceKeyText(name, hue));
    WorkspaceDirSpelled(env);
    assert (digest + ".png")[0] != '/';
    AppendSegment(p, "cache/markers/_workspace", digest + ".png");
    Regroup(p, "cache/markers/_workspace", digest, ".png");
    WorkspaceDirSlash();
  }

  lemma CacheDirSpelled(env: Env)
    ensures CacheDir(env) == RootPrefix(env.mediaRoot) + "cache/markers"
  {
    var p := RootPrefix(env.mediaRoot);
    assert Strings.PathJoin(env.mediaRoot, "cache") == p + "cache";
    AppendSegment(p, "cache", "markers");
    CacheDirName();
  }

  lemma WorkspaceDirSpelled(env: Env)
    ensures Strings.PathJoin(CacheDir(env), "_workspace") == RootPrefix(env.mediaRoot) + "cache/markers/_workspace"
  {
    CacheDirSpelled(env);
    AppendSegment(RootPrefix(env.mediaRoot), "cache/markers", "_workspace");
    WorkspaceDirName();
  }

  /** Joining a relative part onto `p + dir`, where `dir` does not end in a separator, adds one `/`. */
  lemma AppendSegment(p: string, dir: string, part: string)
    requires dir != [] && dir[|dir| - 1] != '/' && (part == [] || part[0] != '/')
    ensures Strings.PathJoin(p + dir, part) == p + (dir + "/" + part)
  {
    assert (p + dir)[|p + dir| - 1] == dir[|dir| - 1];
  }

  /**
   With a non-empty MEDIA_ROOT that occurs only as the prefix of the cache path,
   the URL is MEDIA_URL followed by the rest of the path.
   */
  lemma MarkerUrlUnderMediaUrl(env: Env, fs: Store, m: Marker)
    requires env.mediaRoot != []
    requires |m.key| == 0 || m.key[0] != '/'
    requires MarkerUrl(env, fs, m).0.Ok?
    requires Strings.Absent(CachePath(env, m.key)[|env.mediaRoot|..], env.mediaRoot)
    ensures |CachePath(env, m.key)| >= |env.mediaRoot|
    ensures MarkerUrl(env, fs, m).0.value == env.mediaUrl + CachePath(env, m.key)[|env.mediaRoot|..]
  {
    CachePathUnderRoot(env, m.key);
    Strings.ReplaceAllPrefixOnly(CachePath(env, m.key), env.mediaRoot, env.mediaUrl);
  }

  /** When MEDIA_URL equals MEDIA_ROOT the URL is the file name itself. */
  lemma MarkerUrlIdentity(env: Env, fs: Store, m: Marker)
    requires env.mediaUrl == env.mediaRoot
    requires MarkerUrl(env, fs, m).0.Ok?
    ensures MarkerUrl(env, fs, m).0.value == CachePath(env, m.key)
  {
    Strings.ReplaceAllSelf(CachePath(env, m.key), env.mediaRoot);
  }

  // ---------------------------------------------------------------- spelling

  /*
   Facts about literal text that the proofs above rely on: a concatenation of
   literals equals the literal it spells, and regrouping a concatenation.
   */

  lemma JoinHueField()
    ensures "0" + "-" + "255--[None, None]-10-000000" == "0-255--[None, None]-10-000000"
  {
  }

  lemma JoinOpacityField()
    ensures "255" + "-" + "-[None, None]-10-000000" == "255--[None, None]-10-000000"
  {
  }

  lemma JoinTextToColourFields()
    ensures "" + "-" + ("[None, None]" + "-" + ("10" + "-" + "000000")) == "-[None, None]-10-000000"
  {
  }

  lemma CacheDirName()
    ensures "cache" + "/" + "markers" == "cache/markers"
  {
  }

  lemma CacheDirSlash()
    ensures "cache/markers" + "/" == "cache/markers/"
  {
  }

  lemma WorkspaceDirName()
    ensures "cache/markers" + "/" + "_workspace" == "cache/markers/_workspace"
  {
  }

  lemma WorkspaceDirSlash()
    ensures "cache/markers/_workspace" + "/" == "cache/markers/_workspace/"
  {
  }

  lemma Regroup(p: string, dir: string, name: string, ext: string)
    ensures p + (dir + "/" + (name + ext)) == p + (dir + "/") + name + ext
  {
  }
}

=== FILE: numerals.dfy ===
/**
 Decimal numerals as Python's `int()` and `str()` read and write them,
 restricted to ASCII digits and ASCII whitespace, and single hex digits.
 */
module Numerals {
  import opened Results

  predicate IsDigit(c: char) {
    '0' <= c <= '9'
  }

  predicate IsDigits(s: string) {
    forall i :: 0 <= i < |s| ==> IsDigit(s[i])
  }

  /** The characters Python's `str.isspace` accepts in the ASCII range. */
  predicate IsSpace(c: char) {
    (9 <= c as int <= 13) || (28 <= c as int <= 32)
  }

  function DigitValue(c: char): (d: nat)
    requires IsDigit(c)
    ensures d < 10
  {
    c as int - '0' as int
  }

  function DigitChar(d: nat): (c: char)
    requires d < 10
    ensures IsDigit(c) && DigitValue(c) == d
  {
    ('0' as int + d) as char
  }

  /** The value of a run of decimal digits, most significant first; leading zeros are allowed. */
  function DigitsValue(s: string): nat
    requires IsDigits(s)
  {
    if s == [] then 0 else DigitsValue(s[..|s| - 1]) * 10 + DigitValue(s[|s| - 1])
  }

  /** `str(n)` for a non-negative integer: the shortest digit string denoting `n`. */
  function NatToDecimal(n: nat): (s: string)
    ensures |s| > 0 && IsDigits(s)
    ensures DigitsValue(s) == n
    ensures s[0] == '0' ==> s == "0"
  {
    if n < 10 then [DigitChar(n)]
    else
      var prefix := NatToDecimal(n / 10);
      var s := prefix + [DigitChar(n % 10)];
      assert s[..|s| - 1] == prefix;
      s
  }

  /** `str(i)` for any integer: a minus sign before the digits of a negative number. */
  function IntToDecimal(i: int): (s: string)
    ensures |s| > 0 && '-' !in s[1..]
    ensures i >= 0 <==> '-' !in s
  {
    if i < 0 then "-" + NatToDecimal(-i) else NatToDecimal(i)
  }

  function StripLeft(s: string): (r: string)
    ensures |r| <= |s| && r == s[|s| - |r|..]
    ensures r == [] || !IsSpace(r[0])
  {
    if s != [] && IsSpace(s[0]) then StripLeft(s[1..]) else s
  }

  function StripRight(s: string): (r: string)
    ensures |r| <= |s| && r == s[..|r|]
    ensures r == [] || !IsSpace(r[|r| - 1])
  {
    if s != [] && IsSpace(s[|s| - 1]) then StripRight(s[..|s| - 1]) else s
  }

  /** `str.strip()` with no argument, over the ASCII whitespace set. */
  function Strip(s: string): string {
    StripRight(StripLeft(s))
  }

  /** The digits of a signed numeral split from its optional leading sign. */
  function SplitSign(t: string): (r: (bool, string))
    ensures r.1 == t || (|t| > 0 && r.1 == t[1..])
    ensures r.0 ==> |t| > 0 && t[0] == '-'
  {
    if |t| > 0 && (t[0] == '-' || t[0] == '+') then (t[0] == '-', t[1..]) else (false, t)
  }

  /**
   `int(s)` for a string `s`: surrounding whitespace, an optional sign and a
   non-empty run of decimal digits; anything else raises ValueError (None here).
   */
  function ParseInt(s: string): Option<int> {
    var (negative, digits) := SplitSign(Strip(s));
    if |digits| > 0 && IsDigits(digits) then
      Some(if negative then -(DigitsValue(digits) as int) else DigitsValue(digits) as int)
    else None
  }

  lemma StripUnpadded(s: string)
    requires |s| > 0 && !IsSpace(s[0]) && !IsSpace(s[|s| - 1])
    ensures Strip(s) == s
  {
  }

  /** Digits-bounded text, with or without a minus sign before it, strips to itself and splits off that sign. */
  lemma SplitSigned(s: string, negative: bool, body: string)
    requires |body| > 0 && IsDigit(body[0]) && IsDigit(body[|body| - 1])
    requires s == (if negative then "-" + body else body)
    ensures SplitSign(Strip(s)) == (negative, body)
  {
    assert s[|s| - 1] == body[|body| - 1];
    if negative {
      assert s[0] == '-' && s[1..] == body;
    }
    StripUnpadded(s);
  }

  /** `str(i)` has no surrounding blanks, and its sign splits off to leave the digits of `|i|`. */
  lemma SplitDecimal(i: int)
    ensures var n: nat := if i < 0 then -i else i;
            Strip(IntToDecimal(i)) == IntToDecimal(i) && SplitSign(IntToDecimal(i)) == (i < 0, NatToDecimal(n))
  {
    var s := IntToDecimal(i);
    var digits := NatToDecimal(if i < 0 then -i else i);
    assert !IsSpace(digits[0]) && !IsSpace(digits[|digits| - 1]);
    assert !IsSpace(s[|s| - 1]);
    if i < 0 {
      assert s[0] == '-' && s[1..] == digits;
    } else {
      assert !IsSpace(s[0]);
    }
    StripUnpadded(s);
  }

  /** Reading back what `str()` wrote for an integer gives that integer. */
  lemma {:induction false} ParseIntOfDecimal(i: int)
    ensures ParseInt(IntToDecimal(i)) == Some(i)
  {
    var n: nat := if i < 0 then -i else i;
    var digits := NatToDecimal(n);
    SplitDecimal(i);
    ParseIntOfSplit(IntToDecimal(i), i < 0, digits);
  }

  /** `int` of text whose stripped, sign-split form is a run of digits. */
  lemma ParseIntOfSplit(s: string, negative: bool, digits: string)
    requires SplitSign(Strip(s)) == (negative, digits) && |digits| > 0 && IsDigits(digits)
    ensures ParseInt(s) == Some(if negative then -(DigitsValue(digits) as int) else DigitsValue(digits) as int)
  {
  }

  /** Distinct integers are written as distinct numerals. */
  lemma DecimalInjective(i: int, j: int)
    requires IntToDecimal(i) == IntToDecimal(j)
    ensures i == j
  {
    ParseIntOfDecimal(i);
    ParseIntOfDecimal(j);
  }

  function Pow10(n: nat): (p: nat)
    ensures p >= 1
  {
    if n == 0 then 1 else 10 * Pow10(n - 1)
  }

  predicate IsHexDigit(c: char) {
    '0' <= c <= '9' || 'a' <= c <= 'f' || 'A' <= c <= 'F'
  }

  function HexValue(c: char): (v: nat)
    requires IsHexDigit(c)
    ensures v < 16
  {
    if '0' <= c <= '9' then c as int - '0' as int
    else if 'a' <= c <= 'f' then c as int - 'a' as int + 10
    else c as int - 'A' as int + 10
  }

  function LowerHexDigit(v: nat): (c: char)
    requires v < 16
    ensures IsHexDigit(c) && HexValue(c) == v
  {
    if v < 10 then ('0' as int + v) as char else ('a' as int + v - 10) as char
  }
}

=== FILE: pyvalues.dfy ===
/**
 The Python values that reach the marker constructor, and the built-in
 conversions the constructor applies to them: `int()`, `float()`,
 `isinstance(v, (int, float))`, the ordering comparisons, and the `%s`
 and `repr` formatting used to build the cache key.
 */
module PyValues {
  import opened Results
  import opened Numerals
  import Strings

  /** A Python float. Finite values are exact reals; IEEE rounding is not modelled. */
  datatype Float = Finite(value: real) | NaN | Inf(negative: bool)

  datatype PyValue =
    | PyNone
    | PyBool(b: bool)
    | PyInt(i: int)
    | PyFloat(f: Float)
    | PyStr(s: string)

  /** The built-in exceptions the modelled code can raise without catching them. */
  datatype PyException = ValueError | TypeError | OverflowError | IOError | UnicodeEncodeError

  /** `int(r)` for a finite float: rounds toward zero. */
  function Trunc(r: real): (t: int)
    ensures r >= 0.0 ==> t >= 0 && t as real <= r < t as real + 1.0
    ensures r < 0.0 ==> t <= 0 && t as real - 1.0 < r <= t as real
  {
    if r >= 0.0 then r.Floor else -((-r).Floor)
  }

  /** `int(v)`: the integer conversion, with the exception each kind of bad value raises. */
  function IntOf(v: PyValue): Result<int, PyException> {
    match v
    case PyNone => Err(TypeError)
    case PyBool(b) => Ok(if b then 1 else 0)
    case PyInt(i) => Ok(i)
    case PyFloat(Finite(r)) => Ok(Trunc(r))
    case PyFloat(NaN) => Err(ValueError)
    case PyFloat(Inf(_)) => Err(OverflowError)
    case PyStr(s) =>
      match ParseInt(s)
      case Some(i) => Ok(i)
      case None => Err(ValueError)
  }

  /** `isinstance(v, (int, float))`; a bool is an int in Python. */
  predicate IsNumber(v: PyValue) {
    v.PyBool? || v.PyInt? || v.PyFloat?
  }

  /** `float(v)` for a number. */
  function FloatOf(v: PyValue): Float
    requires IsNumber(v)
  {
    match v
    case PyBool(b) => Finite(if b then 1.0 else 0.0)
    case PyInt(i) => Finite(i as real)
    case PyFloat(f) => f
  }

  /** `x < c`: every comparison with NaN is false. */
  predicate FloatLess(x: Float, c: real) {
    match x
    case Finite(r) => r < c
    case NaN => false
    case Inf(negative) => negative
  }

  /** `x > c`: every comparison with NaN is false. */
  predicate FloatGreater(x: Float, c: real) {
    match x
    case Finite(r) => r > c
    case NaN => false
    case Inf(negative) => !negative
  }

  /** The index of the first character of `s` in `stops`, or `|s|` when there is none. */
  function FirstIndex(s: string, stops: set<char>): (k: nat)
    ensures k <= |s|
    ensures forall i :: 0 <= i < k ==> s[i] !in stops
    ensures k < |s| ==> s[k] in stops
  {
    if s == [] || s[0] in stops then 0 else 1 + FirstIndex(s[1..], stops)
  }

  /**
   `v * 10 ** k` as an exact real, one factor of ten at a time, so that every
   step multiplies or divides by a constant.
   */
  function Shift(v: real, k: int): real
    decreases if k >= 0 then k else -k
  {
    if k == 0 then v else if k > 0 then Shift(v * 10.0, k - 1) else Shift(v / 10.0, k + 1)
  }

  /** The exponent of a float literal: an optional sign and at least one digit. */
  function ExponentValue(x: string): Option<int> {
    var (negative, digits) := SplitSign(x);
    if |digits| > 0 && IsDigits(digits) then
      Some(if negative then -(DigitsValue(digits) as int) else DigitsValue(digits) as int)
    else None
  }

  /** A mantissa split at its first `.` into whole and fraction digits. */
  function MantissaParts(mantissa: string): (string, string) {
    var d := FirstIndex(mantissa, {'.'});
    (mantissa[..d], if d < |mantissa| then mantissa[d + 1..] else [])
  }

  /** The value of the digits `whole` `fraction` scaled by `10 ** exponent`. */
  function LiteralValue(digits: nat, fractionLength: nat, exponent: int): real {
    Shift(digits as real, exponent - fractionLength)
  }

  /**
   An unsigned decimal float literal: digits with an optional fraction part
   (at least one digit overall), then an optional exponent.
   */
  function DecimalLiteral(body: string): Option<real> {
    var e := FirstIndex(body, {'e', 'E'});
    var exponent := if e == |body| then Some(0) else ExponentValue(body[e + 1..]);
    var (whole, fraction) := MantissaParts(body[..e]);
    if exponent.Some? && IsDigits(whole) && IsDigits(fraction) && |whole| + |fraction| > 0 then
      Some(LiteralValue(DigitsValue(whole + fraction), |fraction|, exponent.value))
    else None
  }

  /**
   `float(s)` for a string `s`: surrounding whitespace, an optional sign, then
   `inf`, `infinity` or `nan` in any case, or a decimal literal. Anything else
   raises ValueError (None here).
   */
  function ParseFloat(s: string): Option<Float> {
    var (negative, body) := SplitSign(Strip(s));
    var word := Strings.Lower(body);
    if word == "inf" || word == "infinity" then Some(Inf(negative))
    else if word == "nan" then Some(NaN)
    else
      match DecimalLiteral(body)
      case Some(r) => Some(Finite(if negative then -r else r))
      case None => None
  }

  lemma DecimalLiteralOfDigits(digits: string)
    requires |digits| > 0 && IsDigits(digits)
    ensures DecimalLiteral(digits) == Some(DigitsValue(digits) as real)
  {
    FirstIndexAbsent(digits, {'e', 'E'});
    FirstIndexAbsent(digits, {'.'});
    assert digits[..|digits|] == digits;
    assert MantissaParts(digits) == (digits, []);
    assert digits + [] == digits;
    DecimalLiteralOfParts(digits, digits, []);
    LiteralUnscaled(DigitsValue(digits), 0);
  }

  lemma FirstIndexAbsent(s: string, stops: set<char>)
    requires IsDigits(s) && forall c | c in stops :: !IsDigit(c)
    ensures FirstIndex(s, stops) == |s|
  {
  }

  /** An integer written by `str()` reads back through `float()` as the same value. */
  lemma ParseFloatOfDecimal(i: int)
    ensures ParseFloat(IntToDecimal(i)) == Some(Finite(i as real))
  {
    var n: nat := if i < 0 then -i else i;
    var digits := NatToDecimal(n);
    SplitDecimal(i);
    LeadingDigitNotWord(digits);
    DecimalLiteralOfDigits(digits);
    ParseFloatOfLiteral(IntToDecimal(i), i < 0, digits, n as real);
  }

  /** `"%s" % v` (equivalently `str(v)`); a float's shortest round-trip text is supplied by `floatRepr`. */
  function Str(v: PyValue, floatRepr: Float -> string): string {
    match v
    case PyNone => "None"
    case PyBool(b) => if b then "True" else "False"
    case PyInt(i) => IntToDecimal(i)
    case PyFloat(f) => floatRepr(f)
    case PyStr(s) => s
  }

  /** `repr(v)`, which is how the elements of a list are written by `str(list)`. */
  function Repr(v: PyValue, floatRepr: Float -> string): string {
    match v
    case PyStr(s) => StrRepr(s)
    case _ => Str(v, floatRepr)
  }

  /**
   The characters below U+0100 that `str.isprintable` rejects: the C0 and C1
   controls, DEL, the no-break space and the soft hyphen.
   */
  predicate IsLatinNonPrintable(c: char) {
    c as int < 32 || 127 <= c as int <= 160 || c as int == 0xAD
  }

  /** How `repr` writes one character of a string quoted with `quote`. */
  function ReprChar(c: char, quote: char): string {
    if c == quote || c == '\\' then ['\\', c]
    else if c == '\t' then "\\t"
    else if c == '\n' then "\\n"
    else if c == '\r' then "\\r"
    else if IsLatinNonPrintable(c) then
      "\\x" + [LowerHexDigit(c as int / 16), LowerHexDigit(c as int % 16)]
    else [c]
  }

  function ReprBody(s: string, quote: char): string {
    if s == [] then [] else ReprChar(s[0], quote) + ReprBody(s[1..], quote)
  }

  /** `repr(s)`: single quotes unless the text holds a single quote and no double quote. */
  function StrRepr(s: string): string {
    var quote := if '\'' in s && '"' !in s then '"' else '\'';
    [quote] + ReprBody(s, quote) + [quote]
  }

  /** A soft hyphen is written as its two-digit hex escape. */
  lemma ReprSoftHyphen()
    ensures StrRepr([0xAD as char]) == "'\\xad'"
  {
    assert ReprBody([0xAD as char], '\'') == ReprChar(0xAD as char, '\'');
  }

  /** A character `repr` writes as itself. */
  predicate IsPlainChar(c: char) {
    32 <= c as int < 127 && c != '\'' && c != '\\'
  }

  /** Text of printable ASCII without quotes or backslashes is written between single quotes, verbatim. */
  lemma {:induction false} StrReprPlain(s: string)
    requires forall i :: 0 <= i < |s| ==> IsPlainChar(s[i])
    ensures StrRepr(s) == "'" + s + "'"
  {
    ReprBodyPlain(s);
  }

  lemma {:induction false} ReprBodyPlain(s: string)
    requires forall i :: 0 <= i < |s| ==> IsPlainChar(s[i])
    ensures ReprBody(s, '\'') == s
  {
    if s != [] {
      ReprBodyPlain(s[1..]);
      assert s == [s[0]] + s[1..];
    }
  }

  lemma FirstIndexAbsentChars(s: string, stops: set<char>)
    requires forall i :: 0 <= i < |s| ==> s[i] !in stops
    ensures FirstIndex(s, stops) == |s|
  {
  }

  /** The first `c` sits at `k` when `c` is at `k` and nowhere before it. */
  lemma FirstIndexAt(s: string, c: char, k: nat)
    requires k < |s| && s[k] == c && forall i :: 0 <= i < k ==> s[i] != c
    ensures FirstIndex(s, {c}) == k
  {
  }

  lemma DecimalLiteralOfParts(body: string, whole: string, fraction: string)
    requires FirstIndex(body, {'e', 'E'}) == |body| && MantissaParts(body) == (whole, fraction)
    requires IsDigits(whole) && IsDigits(fraction) && |whole| + |fraction| > 0
    ensures DecimalLiteral(body) == Some(LiteralValue(DigitsValue(whole + fraction), |fraction|, 0))
  {
    assert body[..|body|] == body;
  }

  lemma DigitsConcat(a: string, b: string)
    requires IsDigits(a) && IsDigits(b)
    ensures IsDigits(a + b)
  {
    forall i | 0 <= i < |a + b|
      ensures IsDigit((a + b)[i])
    {
      if i < |a| { assert (a + b)[i] == a[i]; }
      else { assert (a + b)[i] == b[i - |a|]; }
    }
  }

  lemma MantissaOfFraction(whole: string, fraction: string)
    requires IsDigits(whole)
    ensures MantissaParts(whole + "." + fraction) == (whole, fraction)
  {
    var body := whole + "." + fraction;
    forall i | 0 <= i < |whole|
      ensures body[i] != '.'
    {
      assert body[i] == whole[i];
    }
    FirstIndexAt(body, '.', |whole|);
    assert body[..|whole|] == whole && body[|whole| + 1..] == fraction;
  }

  lemma NoExponent(whole: string, fraction: string)
    requires IsDigits(whole) && IsDigits(fraction)
    ensures var body := whole + "." + fraction; FirstIndex(body, {'e', 'E'}) == |body|
  {
    var body := whole + "." + fraction;
    forall i | 0 <= i < |body|
      ensures body[i] != 'e' && body[i] != 'E'
    {
      if i < |whole| {
        assert body[i] == whole[i] && IsDigit(whole[i]);
      } else if i > |whole| {
        assert body[i] == fraction[i - |whole| - 1] && IsDigit(fraction[i - |whole| - 1]);
      }
    }
    FirstIndexAbsentChars(body, {'e', 'E'});
  }

  /** Shifting right by `n` places divides by ten to the `n`. */
  lemma {:induction false} ShiftDown(v: real, n: nat)
    ensures Shift(v, -(n as int)) == v / Pow10(n) as real
    decreases n
  {
    if n > 0 {
      ShiftDown(v / 10.0, n - 1);
      var p := Pow10(n - 1) as real;
      assert Pow10(n) as real == 10.0 * p;
      DivideTwice(v, 10.0, p);
    }
  }

  /** Dividing by `a` and then by `b` is dividing by `a * b`. */
  lemma DivideTwice(v: real, a: real, b: real)
    requires a > 0.0 && b > 0.0
    ensures v / a / b == v / (a * b)
  {
    var q := v / a / b;
    assert q * b == v / a;
    assert q * b * a == v;
    assert q * (a * b) == v;
  }

  lemma LiteralUnscaled(v: nat, n: nat)
    ensures LiteralValue(v, n, 0) == v as real / Pow10(n) as real
  {
    ShiftDown(v as real, n);
  }

  /** `whole.fraction` reads as the digits' value over ten to the number of fraction digits. */
  lemma DecimalLiteralFraction(whole: string, fraction: string)
    requires IsDigits(whole) && IsDigits(fraction) && |whole| + |fraction| > 0
    ensures IsDigits(whole + fraction)
    ensures DecimalLiteral(whole + "." + fraction) ==
            Some(DigitsValue(whole + fraction) as real / Pow10(|fraction|) as real)
  {
    NoExponent(whole, fraction);
    MantissaOfFraction(whole, fraction);
    DigitsConcat(whole, fraction);
    DecimalLiteralOfParts(whole + "." + fraction, whole, fraction);
    LiteralUnscaled(DigitsValue(whole + fraction), |fraction|);
  }
  /** `float` of a signed decimal literal that is not a special word. */
  lemma ParseFloatOfLiteral(s: string, negative: bool, body: string, r: real)
    requires SplitSign(Strip(s)) == (negative, body)
    requires var w := Strings.Lower(body); w != "inf" && w != "infinity" && w != "nan"
    requires DecimalLiteral(body) == Some(r)
    ensures ParseFloat(s) == Some(Finite(if negative then -r else r))
  {
  }

  lemma LeadingDigitNotWord(body: string)
    requires |body| > 0 && IsDigit(body[0])
    ensures var w := Strings.Lower(body); w != "inf" && w != "infinity" && w != "nan"
  {
    assert Strings.Lower(body)[0] == body[0];
  }

  /** `float` reads an unsigned or negative fraction literal `whole.fraction` as its exact value `v`. */
  lemma ParseFloatOfFraction(s: string, negative: bool, body: string, whole: string, fraction: string, v: real)
    requires |whole| > 0 && IsDigits(whole) && |fraction| > 0 && IsDigits(fraction)
    requires body == whole + "." + fraction && s == (if negative then "-" + body else body)
    requires IsDigits(whole + fraction) && v == DigitsValue(whole + fraction) as real / Pow10(|fraction|) as real
    ensures ParseFloat(s) == Some(Finite(if negative then -v else v))
  {
    assert body[0] == whole[0] && IsDigit(whole[0]);
    assert body[|body| - 1] == fraction[|fraction| - 1] && IsDigit(fraction[|fraction| - 1]);
    SplitSigned(s, negative, body);
    LeadingDigitNotWord(body);
    DecimalLiteralFraction(whole, fraction);
    ParseFloatOfLiteral(s, negative, body, v);
  }

  /** `float` of text that is neither a special word nor a decimal literal raises ValueError. */
  lemma ParseFloatRejects(s: string, negative: bool, body: string)
    requires SplitSign(Strip(s)) == (negative, body)
    requires var w := Strings.Lower(body); w != "inf" && w != "infinity" && w != "nan"
    requires DecimalLiteral(body).None?
    ensures ParseFloat(s).None?
  {
  }

  /** Text with no exponent letter and no dot that does not start with a digit is no decimal literal. */
  lemma DecimalLiteralOfNonDigit(body: string)
    requires |body| > 0 && !IsDigit(body[0])
    requires forall i :: 0 <= i < |body| ==> body[i] != 'e' && body[i] != 'E' && body[i] != '.'
    ensures DecimalLiteral(body).None?
  {
    FirstIndexAbsentChars(body, {'e', 'E'});
    assert body[..|body|] == body;
    FirstIndexAbsentChars(body, {'.'});
    assert MantissaParts(body).0 == body;
  }

  /** `float` reads `inf` and `nan`, unsigned and without surrounding blanks, as the special values. */
  lemma ParseFloatOfWord(s: string)
    requires s == "inf" || s == "nan"
    ensures ParseFloat(s) == Some(if s == "inf" then Inf(false) else NaN)
  {
    StripUnpadded(s);
    assert SplitSign(s) == (false, s);
    assert Strings.Lower(s) == s;
  }
}

=== FILE: raster.dfy ===
/**
 Rasters as grids of pixels, and the per-pixel rules the marker code applies
 when it builds the text overlay and the colourised template. Font
 rasterisation, hue conversion and alpha blending are not modelled here: they
 come from outside as functions.
 */
module Raster {
  import opened Results
  import opened Numerals
  import Strings

  type Byte = x: int | 0 <= x < 256

  datatype Rgb = Rgb(red: Byte, green: Byte, blue: Byte)

  datatype Rgba = Rgba(colour: Rgb, alpha: Byte)

  /** An RGBA image as rows of pixels. */
  type Image = seq<seq<Rgba>>

  /** A single-channel ("L" mode) image as rows of grey levels. */
  type Grey = seq<seq<Byte>>

  const Black := Rgb(0, 0, 0)

  /** `image.size` is (width, height); an image with no rows has width 0. */
  function Width(img: Image): nat {
    if |img| == 0 then 0 else |img[0]|
  }

  function Height(img: Image): nat {
    |img|
  }

  /** A new image of one colour, as `Image.new(mode, size, colour)` makes it. */
  function Filled(width: nat, height: nat, p: Rgba): (img: Image)
    ensures Height(img) == height && (height > 0 ==> Width(img) == width)
    ensures forall y, x :: 0 <= y < height && 0 <= x < width ==> |img[y]| == width && img[y][x] == p
  {
    seq(height, _ => seq(width, _ => p))
  }

  /** A new grey image of one level. */
  function FilledGrey(width: nat, height: nat, level: Byte): (g: Grey)
    ensures |g| == height
    ensures forall y, x :: 0 <= y < height && 0 <= x < width ==> |g[y]| == width && g[y][x] == level
  {
    seq(height, _ => seq(width, _ => level))
  }

  /** `ImageChops.lighter` on one pixel: the larger of the two levels. */
  function Lighter(a: Byte, b: Byte): (m: Byte)
    ensures m >= a && m >= b
    ensures m == a || m == b
  {
    if a >= b then a else b
  }

  /** The coverage mask level for a text pixel: `255 * int(p != 0)`. */
  function CoverageMask(p: Byte): (m: Byte)
    ensures m == 0 || m == 255
    ensures m == 255 <==> p != 0
  {
    255 * (if p != 0 then 1 else 0)
  }

  /** `Image.composite(fg, bg, mask)` on one pixel, for a mask level of 0 or 255. */
  function Composite(fg: Rgb, bg: Rgb, mask: Byte): Rgb
    requires mask == 0 || mask == 255
  {
    if mask == 255 then fg else bg
  }

  /**
   One pixel of the text overlay for grey text level `p`: the alpha is
   `lighter(black, p)`, the colour is the solid fill composited over black
   through the coverage mask.
   */
  function OverlayPixel(p: Byte, fill: Rgb): (q: Rgba)
    ensures q.alpha == p
    ensures p != 0 ==> q.colour == fill
    ensures p == 0 ==> q.colour == Black
  {
    Rgba(Composite(fill, Black, CoverageMask(p)), Lighter(0, p))
  }

  /**
   The text layer built from the grey text raster: the overlay image (fill
   colour wherever the text has any coverage, black elsewhere, alpha from the
   anti-aliased text) and the alpha mask used to paste it.
   */
  function TextLayer(text: Grey, fill: Rgb): (r: (Image, Grey))
    ensures |r.0| == |text| && r.1 == text
    ensures forall y :: 0 <= y < |text| ==> |r.0[y]| == |text[y]|
    ensures forall y, x :: 0 <= y < |text| && 0 <= x < |text[y]| ==>
              r.0[y][x].alpha == text[y][x] &&
              r.0[y][x].colour == (if text[y][x] != 0 then fill else Black)
  {
    var alpha := seq(|text|, y requires 0 <= y < |text| =>
                       seq(|text[y]|, x requires 0 <= x < |text[y]| => Lighter(0, text[y][x])));
    var overlay := seq(|text|, y requires 0 <= y < |text| =>
                         seq(|text[y]|, x requires 0 <= x < |text[y]| => OverlayPixel(text[y][x], fill)));
    assert alpha == text by {
      assert |alpha| == |text|;
      forall y | 0 <= y < |text|
        ensures alpha[y] == text[y]
      {
        assert |alpha[y]| == |text[y]|;
      }
    }
    (overlay, alpha)
  }

  /**
   Hue replacement over a whole image: `shift` gives each pixel's colour with its
   hue replaced by `hue / 360`; the alpha channel passes through unchanged.
   */
  function Colourize(shift: (Rgb, real) -> Rgb, img: Image, hue: int): (r: Image)
    ensures |r| == |img|
    ensures forall y :: 0 <= y < |img| ==> |r[y]| == |img[y]|
    ensures forall y, x :: 0 <= y < |img| && 0 <= x < |img[y]| ==>
              r[y][x] == Rgba(shift(img[y][x].colour, hue as real / 360.0), img[y][x].alpha)
  {
    seq(|img|, y requires 0 <= y < |img| =>
          seq(|img[y]|, x requires 0 <= x < |img[y]| =>
                Rgba(shift(img[y][x].colour, hue as real / 360.0), img[y][x].alpha)))
  }

  /**
   The colour the six hex digits at the start of `s` denote (as the imaging
   library reads `"#" + s`), or None when `s` does not start with six hex digits.
   */
  function HexToRgb(s: string): Option<Rgb> {
    if |s| >= 6 && forall i :: 0 <= i < 6 ==> IsHexDigit(s[i]) then
      Some(Rgb(HexValue(s[0]) * 16 + HexValue(s[1]),
               HexValue(s[2]) * 16 + HexValue(s[3]),
               HexValue(s[4]) * 16 + HexValue(s[5])))
    else None
  }

  /** The lower-case six-digit hex form of a colour. */
  function RgbToHex(c: Rgb): (s: string)
    ensures |s| == 6
  {
    [LowerHexDigit(c.red / 16), LowerHexDigit(c.red % 16),
     LowerHexDigit(c.green / 16), LowerHexDigit(c.green % 16),
     LowerHexDigit(c.blue / 16), LowerHexDigit(c.blue % 16)]
  }

  /** Every colour written in hex reads back as itself. */
  lemma HexRoundTrip(c: Rgb)
    ensures HexToRgb(RgbToHex(c)) == Some(c)
  {
  }

  lemma LowerHexOfDigit(c: char)
    requires IsHexDigit(c)
    ensures LowerHexDigit(HexValue(c)) == Strings.LowerChar(c)
  {
  }

  lemma ByteOfPair(hi: nat, lo: nat)
    requires hi < 16 && lo < 16
    ensures (hi * 16 + lo) / 16 == hi && (hi * 16 + lo) % 16 == lo
  {
  }

  /** One channel read from two hex digits is written back as the same two digits in lower case. */
  lemma ChannelOfRead(a: char, b: char, v: Byte)
    requires IsHexDigit(a) && IsHexDigit(b) && v == HexValue(a) * 16 + HexValue(b)
    ensures LowerHexDigit(v / 16) == Strings.LowerChar(a) && LowerHexDigit(v % 16) == Strings.LowerChar(b)
  {
    ByteOfPair(HexValue(a), HexValue(b));
    LowerHexOfDigit(a);
    LowerHexOfDigit(b);
  }

  lemma LowerSix(s: string)
    requires |s| >= 6
    ensures Strings.Lower(s[..6]) == [Strings.LowerChar(s[0]), Strings.LowerChar(s[1]), Strings.LowerChar(s[2]),
                                      Strings.LowerChar(s[3]), Strings.LowerChar(s[4]), Strings.LowerChar(s[5])]
  {
  }

  /** Reading six hex digits and writing them back gives the same digits in lower case. */
  lemma RgbToHexOfRead(s: string)
    requires HexToRgb(s).Some?
    ensures RgbToHex(HexToRgb(s).value) == Strings.Lower(s[..6])
  {
    var c := HexToRgb(s).value;
    ChannelOfRead(s[0], s[1], c.red);
    ChannelOfRead(s[2], s[3], c.green);
    ChannelOfRead(s[4], s[5], c.blue);
    LowerSix(s);
  }
}

=== FILE: results.dfy ===
/** Success/failure carriers used across the model. */
module Results {

  /** A value that may be absent (a finder that found nothing, a failed parse). */
  datatype Option<+T> = None | Some(value: T)

  /** The outcome of an operation that either yields a value or raises an error. */
  datatype Result<+T, +E> = Ok(value: T) | Err(error: E)
}

=== FILE: strings.dfy ===
/**
 The string operations the marker code relies on: `str.replace`, `str.lower`,
 POSIX `os.path.join`, and the HTML escaping the web framework applies to text.
 */
module Strings {

  predicate IsAscii(s: string) {
    forall i :: 0 <= i < |s| ==> s[i] as int < 128
  }

  function LowerChar(c: char): (d: char)
    ensures 'A' <= c <= 'Z' ==> d as int == c as int + 32
    ensures !('A' <= c <= 'Z') ==> d == c
  {
    if 'A' <= c <= 'Z' then (c as int + 32) as char else c
  }

  /** `str.lower()` over the ASCII letters. */
  function Lower(s: string): (r: string)
    ensures |r| == |s|
    ensures forall i :: 0 <= i < |s| ==> r[i] == LowerChar(s[i])
  {
    if s == [] then [] else [LowerChar(s[0])] + Lower(s[1..])
  }

  predicate OccursAt(s: string, pattern: string, i: nat) {
    i + |pattern| <= |s| && s[i..i + |pattern|] == pattern
  }

  /** `pattern` occurs nowhere in `s`. */
  predicate Absent(s: string, pattern: string) {
    forall i: nat :: i + |pattern| <= |s| ==> !OccursAt(s, pattern, i)
  }

  /** `replacement` between every two characters and at both ends: what `s.replace("", replacement)` returns. */
  function InsertEverywhere(s: string, replacement: string): (r: string)
    ensures |r| == |s| + (|s| + 1) * |replacement|
  {
    if s == [] then replacement else replacement + [s[0]] + InsertEverywhere(s[1..], replacement)
  }

  /**
   `s.replace(target, replacement)`: every non-overlapping occurrence of `target`, scanning
   left to right, is replaced by `replacement`; an empty `target` matches at every position.
   */
  function ReplaceAll(s: string, target: string, replacement: string): string
    decreases |s|
  {
    if target == [] then InsertEverywhere(s, replacement)
    else if OccursAt(s, target, 0) then replacement + ReplaceAll(s[|target|..], target, replacement)
    else if s == [] then []
    else [s[0]] + ReplaceAll(s[1..], target, replacement)
  }

  /** A string that does not contain `target` is returned unchanged. */
  lemma {:induction false} ReplaceAllAbsent(s: string, target: string, replacement: string)
    requires target != [] && Absent(s, target)
    ensures ReplaceAll(s, target, replacement) == s
    decreases |s|
  {
    if s != [] {
      assert !OccursAt(s, target, 0);
      assert Absent(s[1..], target) by {
        forall i: nat | i + |target| <= |s[1..]|
          ensures !OccursAt(s[1..], target, i)
        {
          assert s[1..][i..i + |target|] == s[i + 1..i + 1 + |target|];
          assert !OccursAt(s, target, i + 1);
        }
      }
      ReplaceAllAbsent(s[1..], target, replacement);
    }
  }

  /** A leading occurrence of `target` is replaced and the scan resumes after it. */
  lemma ReplaceAllLeading(target: string, rest: string, replacement: string)
    requires target != []
    ensures ReplaceAll(target + rest, target, replacement) == replacement + ReplaceAll(rest, target, replacement)
  {
    assert (target + rest)[..|target|] == target;
    assert (target + rest)[|target|..] == rest;
  }

  /** A string that starts with `target` and holds no other occurrence has just that prefix replaced. */
  lemma ReplaceAllPrefixOnly(s: string, target: string, replacement: string)
    requires target != [] && |s| >= |target| && s[..|target|] == target
    requires Absent(s[|target|..], target)
    ensures ReplaceAll(s, target, replacement) == replacement + s[|target|..]
  {
    var tail := s[|target|..];
    assert s == target + tail;
    ReplaceAllLeading(target, tail, replacement);
    ReplaceAllAbsent(tail, target, replacement);
  }

  /** Replacing a string by itself changes nothing. */
  lemma {:induction false} ReplaceAllSelf(s: string, target: string)
    ensures ReplaceAll(s, target, target) == s
    decreases |s|
  {
    if target == [] {
      InsertEmpty(s);
    } else if OccursAt(s, target, 0) {
      ReplaceAllSelf(s[|target|..], target);
      assert s == target + s[|target|..];
    } else if s != [] {
      ReplaceAllSelf(s[1..], target);
      assert s == [s[0]] + s[1..];
    }
  }

  lemma {:induction false} InsertEmpty(s: string)
    ensures InsertEverywhere(s, []) == s
  {
    if s != [] {
      InsertEmpty(s[1..]);
      assert s == [s[0]] + s[1..];
    }
  }

  /** POSIX `os.path.join(a, b)`: an absolute `b` discards `a`; otherwise one separator between them. */
  function PathJoin(a: string, b: string): (r: string)
    ensures |b| > 0 && b[0] == '/' ==> r == b
    ensures !(|b| > 0 && b[0] == '/') && (a == [] || a[|a| - 1] == '/') ==> r == a + b
    ensures !(|b| > 0 && b[0] == '/') && a != [] && a[|a| - 1] != '/' ==> r == a + "/" + b
  {
    if |b| > 0 && b[0] == '/' then b
    else if a == [] || a[|a| - 1] == '/' then a + b
    else a + "/" + b
  }

  /**
   The HTML entity the web framework's `escape` filter writes for one character,
   as in the Django releases that still provide `django.conf.urls.patterns`
   (before 1.10): the apostrophe becomes `&#39;`.
   */
  function EscapeChar(c: char): string {
    match c
    case '&' => "&amp;"
    case '<' => "&lt;"
    case '>' => "&gt;"
    case '"' => "&quot;"
    case '\'' => "&#39;"
    case _ => [c]
  }

  /** The `escape` filter: the five markup-significant characters become entities. */
  function Escape(s: string): (r: string)
    ensures |r| >= |s|
    ensures forall i :: 0 <= i < |r| ==> r[i] !in "<>\"'"
  {
    if s == [] then [] else EscapeChar(s[0]) + Escape(s[1..])
  }

  /** An apostrophe is escaped as the decimal entity. */
  lemma EscapeApostrophe()
    ensures Escape("'") == "&#39;"
  {
    assert Escape("'") == EscapeChar('\'') + Escape([]);
  }

  /** Reads back the five entities `Escape` writes; every other character stands for itself. */
  function Unescape(s: string): string
    decreases |s|
  {
    if s == [] then []
    else if OccursAt(s, "&amp;", 0) then "&" + Unescape(s[5..])
    else if OccursAt(s, "&lt;", 0) then "<" + Unescape(s[4..])
    else if OccursAt(s, "&gt;", 0) then ">" + Unescape(s[4..])
    else if OccursAt(s, "&quot;", 0) then "\"" + Unescape(s[6..])
    else if OccursAt(s, "&#39;", 0) then "'" + Unescape(s[5..])
    else [s[0]] + Unescape(s[1..])
  }

  lemma UnescapeStep(c: char, rest: string)
    ensures Unescape(EscapeChar(c) + rest) == [c] + Unescape(rest)
  {
    var e := EscapeChar(c);
    var s := e + rest;
    assert s[..|e|] == e;
    assert s[|e|..] == rest;
    if c != '&' && c != '<' && c != '>' && c != '"' && c != '\'' {
      assert e == [c];
      assert s[0] == c;
      NotLeading(s, "&amp;", 0);
      NotLeading(s, "&lt;", 0);
      NotLeading(s, "&gt;", 0);
      NotLeading(s, "&quot;", 0);
      NotLeading(s, "&#39;", 0);
      assert s[1..] == rest;
      assert Unescape(s) == [s[0]] + Unescape(s[1..]);
    } else if c != '&' {
      assert s[1] == e[1];
      NotLeading(s, "&amp;", 1);
      if c != '<' {
        NotLeading(s, "&lt;", 1);
      }
      if c != '>' {
        NotLeading(s, "&gt;", 1);
      }
      if c != '"' {
        NotLeading(s, "&quot;", 1);
      }
    }
  }

  lemma NotLeading(s: string, p: string, k: nat)
    requires k < |p| && k < |s| && s[k] != p[k]
    ensures !OccursAt(s, p, 0)
  {
  }

  /** Escaping loses nothing: the original text can always be recovered. */
  lemma {:induction false} UnescapeEscape(s: string)
    ensures Unescape(Escape(s)) == s
  {
    if s != [] {
      UnescapeStep(s[0], Escape(s[1..]));
      UnescapeEscape(s[1..]);
      assert s == [s[0]] + s[1..];
    }
  }

  /** The fields written one after another with `-` between each two, as `"%s-%s-...-%s" % fields` does. */
  function DashJoin(fields: seq<string>): string {
    if |fields| == 0 then []
    else if |fields| == 1 then fields[0]
    else fields[0] + "-" + DashJoin(fields[1..])
  }

  lemma DropCommonPrefix(p: string, x: string, y: string)
    requires p + x == p + y
    ensures x == y
  {
    assert x == (p + x)[|p|..];
    assert y == (p + y)[|p|..];
  }

  /** Equal joins with equal first fields have equal remainders. */
  lemma DashJoinSameHead(f1: seq<string>, f2: seq<string>)
    requires |f1| >= 2 && |f2| >= 2 && f1[0] == f2[0]
    requires DashJoin(f1) == DashJoin(f2)
    ensures DashJoin(f1[1..]) == DashJoin(f2[1..])
  {
    DropCommonPrefix(f1[0] + "-", DashJoin(f1[1..]), DashJoin(f2[1..]));
  }

  /** Equal joins whose first fields hold no dash agree on the first field and on the rest. */
  lemma DashJoinDashFreeHead(f1: seq<string>, f2: seq<string>)
    requires |f1| >= 2 && |f2| >= 2 && '-' !in f1[0] && '-' !in f2[0]
    requires DashJoin(f1) == DashJoin(f2)
    ensures f1[0] == f2[0] && DashJoin(f1[1..]) == DashJoin(f2[1..])
  {
    var a, b, x, y := f1[0], f2[0], DashJoin(f1[1..]), DashJoin(f2[1..]);
    var s := a + "-" + x;
    FirstDash(a, x);
    FirstDash(b, y);
    assert |a| == |b|;
    assert a == s[..|a|];
    assert b == (b + "-" + y)[..|b|];
    assert x == s[|a| + 1..];
    assert y == (b + "-" + y)[|b| + 1..];
  }

  /** In `a + "-" + x` with a dash-free `a`, the first dash sits just after `a`. */
  lemma FirstDash(a: string, x: string)
    requires '-' !in a
    ensures var s := a + "-" + x; s[|a|] == '-' && forall i :: 0 <= i < |a| ==> s[i] != '-'
  {
    var s := a + "-" + x;
    forall i | 0 <= i < |a|
      ensures s[i] != '-'
    {
      assert s[i] == a[i];
    }
  }

  /** Equal joins with equal remainders have equal first fields. */
  lemma DashJoinSameTail(f1: seq<string>, f2: seq<string>)
    requires |f1| >= 2 && |f2| >= 2 && f1[1..] == f2[1..]
    requires DashJoin(f1) == DashJoin(f2)
    ensures f1[0] == f2[0]
  {
    var rest := DashJoin(f1[1..]);
    assert DashJoin(f1) == f1[0] + "-" + rest;
    assert DashJoin(f2) == f2[0] + "-" + rest;
    DropCommonSuffix(f1[0] + "-", f2[0] + "-", rest);
    DropCommonSuffix(f1[0], f2[0], "-");
  }

  lemma DropCommonSuffix(x: string, y: string, t: string)
    requires x + t == y + t
    ensures x == y
  {
    assert |x| == |y|;
    assert x == (x + t)[..|x|];
    assert y == (y + t)[..|y|];
  }

  /** A field holding a dash joins exactly as the two fields either side of that dash would. */
  lemma {:induction false} DashJoinSplitField(pre: seq<string>, a: string, b: string, post: seq<string>)
    ensures DashJoin(pre + [a + "-" + b] + post) == DashJoin(pre + [a, b] + post)
    decreases |pre|
  {
    if pre == [] {
      assert [a + "-" + b] + post == [] + [a + "-" + b] + post;
      assert [a, b] + post == [] + [a, b] + post;
      if post == [] {
        assert DashJoin([a, b]) == a + "-" + DashJoin([b]);
      } else {
        var rest := DashJoin(post);
        assert ([a + "-" + b] + post)[1..] == post;
        assert ([a, b] + post)[1..] == [b] + post;
        assert ([b] + post)[1..] == post;
        assert DashJoin([a + "-" + b] + post) == a + "-" + b + "-" + rest;
        assert DashJoin([a, b] + post) == a + "-" + (b + "-" + rest);
      }
    } else {
      DashJoinSplitField(pre[1..], a, b, post);
      assert (pre + [a + "-" + b] + post)[1..] == pre[1..] + [a + "-" + b] + post;
      assert (pre + [a, b] + post)[1..] == pre[1..] + [a, b] + post;
      assert (pre + [a + "-" + b] + post)[0] == pre[0] == (pre + [a, b] + post)[0];
    }
  }
}

=== FILE: views.dfy ===
/**
 The HTTP view: query-string coercion into marker arguments, and the mapping
 from construction and rendering outcomes to the response.
 */
module Views {
  import opened Results
  import opened Numerals
  import opened PyValues
  import opened Raster
  import opened Markers
  import Strings

  /** The query string, one value per parameter. */
  type Query = map<string, string>

  /** `request.GET.get(key)`. */
  function Lookup(query: Query, key: string): Option<string> {
    if key in query then Some(query[key]) else None
  }

  /** `request.GET.get(key, default)` for a string default. */
  function LookupOr(query: Query, key: string, default: string): string {
    if key in query then query[key] else default
  }

  // ---------------------------------------------------------------- _get_float, _get_int

  /**
   `_get_float`: `float(GET.get(key, default))`, keeping the integer default
   when `float` raises ValueError on the supplied text.
   */
  function GetFloat(query: Query, key: string, default: int): (r: PyValue)
    ensures IsNumber(r)
    ensures key !in query ==> r == PyFloat(Finite(default as real))
    ensures key in query ==> (r.PyFloat? <==> ParseFloat(query[key]).Some?)
    ensures key in query && r.PyFloat? ==> r.f == ParseFloat(query[key]).value
    ensures r.PyInt? ==> r.i == default && key in query
  {
    match Lookup(query, key)
    case None => PyFloat(Finite(default as real))
    case Some(s) =>
      match ParseFloat(s)
      case Some(f) => PyFloat(f)
      case None => PyInt(default)
  }

  /** `_get_int`: `int(GET.get(key, default))`, keeping the default when `int` raises ValueError. */
  function GetInt(query: Query, key: string, default: int): (r: int)
    ensures key in query && ParseInt(query[key]).Some? ==> r == ParseInt(query[key]).value
    ensures !(key in query && ParseInt(query[key]).Some?) ==> r == default
  {
    match Lookup(query, key)
    case None => default
    case Some(s) =>
      match ParseInt(s)
      case Some(i) => i
      case None => default
  }

  /** Whatever number the marker sees is the parsed value or, whenever parsing is skipped or fails, the default. */
  lemma GetFloatValue(query: Query, key: string, default: int)
    ensures key in query && ParseFloat(query[key]).Some? ==>
              FloatOf(GetFloat(query, key, default)) == ParseFloat(query[key]).value
    ensures !(key in query && ParseFloat(query[key]).Some?) ==>
              FloatOf(GetFloat(query, key, default)) == Finite(default as real)
  {
  }

  /** A parameter written as an integer numeral reaches the marker as that number, as a float. */
  lemma GetFloatOfNumeral(query: Query, key: string, i: int, default: int)
    requires key in query && query[key] == IntToDecimal(i)
    ensures GetFloat(query, key, default) == PyFloat(Finite(i as real))
  {
    ParseFloatOfDecimal(i);
  }

  /** A parameter written as an integer numeral reaches the marker as that integer. */
  lemma GetIntOfNumeral(query: Query, key: string, i: int, default: int)
    requires key in query && query[key] == IntToDecimal(i)
    ensures GetInt(query, key, default) == i
  {
    ParseIntOfDecimal(i);
  }

  /** Lower-case letters without an `e` are not a float, unless they spell `inf`, `infinity` or `nan`. */
  lemma ParseFloatLetters(s: string)
    requires |s| > 0 && s != "inf" && s != "infinity" && s != "nan"
    requires forall i :: 0 <= i < |s| ==> 'a' <= s[i] <= 'z' && s[i] != 'e'
    ensures ParseFloat(s) == None
  {
    assert 'a' <= s[|s| - 1] <= 'z';
    StripUnpadded(s);
    assert SplitSign(s) == (false, s);
    assert Strings.Lower(s) == s;
    DecimalLiteralOfNonDigit(s);
    ParseFloatRejects(s, false, s);
  }

  lemma ParseFloatHueNearTop()
    ensures ParseFloat("360.9") == Some(Finite(360.9))
  {
    assert DigitsValue("3609") == 3609 by {
      assert "3609"[..3] == "360" && "360"[..2] == "36" && "36"[..1] == "3" && "3"[..0] == "";
    }
    assert "360.9" == "360" + "." + "9" && "360" + "9" == "3609";
    assert IsDigits("3609");
    ParseFloatOfFraction("360.9", false, "360.9", "360", "9", 360.9);
  }

  lemma ParseFloatNegativeHalf()
    ensures ParseFloat("-0.5") == Some(Finite(-0.5))
  {
    assert DigitsValue("05") == 5 by {
      assert "05"[..1] == "0" && "0"[..0] == "";
    }
    assert "-0.5" == "-" + "0.5" && "0.5" == "0" + "." + "5" && "0" + "5" == "05";
    assert IsDigits("05");
    ParseFloatOfFraction("-0.5", true, "0.5", "0", "5", 0.5);
  }

  // ---------------------------------------------------------------- coordinates

  /** `str.isdigit` on one character, up to U+00FF: the ten decimal digits and the superscripts one, two and three. */
  predicate IsDigitLike(c: char) {
    IsDigit(c) || c as int == 0xB2 || c as int == 0xB3 || c as int == 0xB9
  }

  /** `s.isdigit()`: non-empty, every character a digit. */
  predicate PyIsDigit(s: string) {
    |s| > 0 && forall i :: 0 <= i < |s| ==> IsDigitLike(s[i])
  }

  /** `int(s)` on a text `isdigit` accepts: its value when every digit is decimal, ValueError otherwise. */
  lemma ParseIntOfDigitLike(s: string)
    requires PyIsDigit(s)
    ensures IsDigits(s) ==> ParseInt(s) == Some(DigitsValue(s) as int)
    ensures !IsDigits(s) ==> ParseInt(s) == None
  {
    assert IsDigitLike(s[0]) && IsDigitLike(s[|s| - 1]);
    StripUnpadded(s);
    assert SplitSign(s) == (false, s);
  }

  /**
   The coercion of `text_x` and `text_y`, outside the view's error handling:
   an absent parameter is None, a non-empty `isdigit` text is converted by
   `int` (which raises ValueError on a superscript digit), anything else is
   passed on as text.
   */
  function Coordinate(v: Option<string>): (r: Result<PyValue, PyException>)
    ensures r == Ok(PyNone) <==> v.None?
    ensures r.Err? <==> v.Some? && PyIsDigit(v.value) && !IsDigits(v.value)
    ensures r.Err? ==> r.error == ValueError
    ensures r.Ok? && r.value.PyInt? ==> v.Some? && |v.value| > 0 && IsDigits(v.value) && r.value.i == DigitsValue(v.value)
    ensures r.Ok? && r.value.PyStr? ==> v == Some(r.value.s) && !PyIsDigit(r.value.s)
    ensures r.Ok? ==> r.value.PyNone? || r.value.PyInt? || r.value.PyStr?
  {
    match v
    case None => Ok(PyNone)
    case Some(s) =>
      if s != [] && PyIsDigit(s) then
        ParseIntOfDigitLike(s);
        match ParseInt(s)
        case Some(n) => Ok(PyInt(n))
        case None => Err(ValueError)
      else Ok(PyStr(s))
  }

  /** A coordinate written as `str(n)` arrives as the integer `n`. */
  lemma CoordinateOfNumeral(n: nat)
    ensures Coordinate(Some(NatToDecimal(n))) == Ok(PyInt(n))
  {
    var s := NatToDecimal(n);
    assert PyIsDigit(s);
  }

  /** Signs, blanks and letters stay text; a superscript digit makes `int` raise. */
  lemma CoordinateExamples()
    ensures Coordinate(Some("-3")) == Ok(PyStr("-3"))
    ensures Coordinate(Some("")) == Ok(PyStr(""))
    ensures Coordinate(Some(" 7")) == Ok(PyStr(" 7"))
    ensures Coordinate(Some("abc")) == Ok(PyStr("abc"))
    ensures Coordinate(Some([0xB2 as char])) == Err(ValueError)
  {
    assert !IsDigitLike('-') && !IsDigitLike(' ') && !IsDigitLike('a');
    assert !IsDigit(0xB2 as char);
  }

  // ---------------------------------------------------------------- the view

  /** The keyword arguments the view passes to the constructor. */
  function RequestArgs(query: Query, template: string, x: PyValue, y: PyValue): MarkerArgs {
    MarkerArgs(
      template,
      GetFloat(query, "hue", 0),
      GetFloat(query, "opacity", 1),
      LookupOr(query, "text", ""),
      (x, y),
      PyInt(GetInt(query, "text_size", 11)),
      PyStr(LookupOr(query, "text_colour", "000000")))
  }

  /** What the view answers. */
  datatype Response =
    | BadRequest(body: string)
    | PngImage(image: Image)
    | ServerError(exception: PyException)

  /** Everything the view does before it hands the marker over: coordinates, then construction. */
  function Prepare(env: Env, fs: Store, query: Query, template: string): (r: (Result<Marker, MarkerError>, Store))
    ensures r.0.Err? && !r.0.error.Uncaught? ==> r.1 == fs
    ensures Coordinate(Lookup(query, "text_x")).Err? || Coordinate(Lookup(query, "text_y")).Err? ==>
              r == (Err(Uncaught(ValueError)), fs)
    ensures Coordinate(Lookup(query, "text_x")).Ok? && Coordinate(Lookup(query, "text_y")).Ok? ==>
              r == Construct(env, fs, RequestArgs(query, template, Coordinate(Lookup(query, "text_x")).value,
                                                  Coordinate(Lookup(query, "text_y")).value))
    ensures r.0.Ok? ==>
              var m := r.0.value;
              && Coordinate(Lookup(query, "text_x")).Ok? && Coordinate(Lookup(query, "text_y")).Ok?
              && m.hue == IntOf(GetFloat(query, "hue", 0)).value
              && m.opacity as real <= FloatOf(GetFloat(query, "opacity", 1)).value * 255.0 < m.opacity as real + 1.0
              && m.text == LookupOr(query, "text", "")
              && m.textPosition == (Coordinate(Lookup(query, "text_x")).value, Coordinate(Lookup(query, "text_y")).value)
              && m.textSize == PyInt(GetInt(query, "text_size", 11))
              && m.textColour == LookupOr(query, "text_colour", "000000")
  {
    match Coordinate(Lookup(query, "text_x"))
    case Err(x) => (Err(Uncaught(x)), fs)
    case Ok(x) =>
      match Coordinate(Lookup(query, "text_y"))
      case Err(y) => (Err(Uncaught(y)), fs)
      case Ok(y) => Construct(env, fs, RequestArgs(query, template, x, y))
  }

  /**
   `MarkerView.get`: the four validation errors become a 400 whose body is the
   escaped message; any other exception is a server error; otherwise the
   marker image, fetched through the cache.
   */
  function Get(env: Env, fs: Store, query: Query, template: string): (r: (Response, Store))
    ensures var (c, fs1) := Prepare(env, fs, query, template);
            && (r.0.BadRequest? <==> c.Err? && !c.error.Uncaught?)
            && (r.0.BadRequest? ==> Strings.Unescape(r.0.body) == c.error.message && r.1 == fs)
            && (r.0.BadRequest? ==> forall i :: 0 <= i < |r.0.body| ==> r.0.body[i] !in "<>\"'")
            && (r.0.PngImage? <==> c.Ok? && GetMarker(env, fs1, c.value).0.Ok?)
            && (r.0.PngImage? ==> Open(r.1, CachePath(env, c.value.key)) == Some(r.0.image))
            && (r.0.PngImage? ==> r == (PngImage(GetMarker(env, fs1, c.value).0.value.image), GetMarker(env, fs1, c.value).1))
            && (r.0.ServerError? ==> c == Err(Uncaught(r.0.exception)) ||
                                     (c.Ok? && GetMarker(env, fs1, c.value).0 == Err(r.0.exception)))
            && (r.0.ServerError? ==> r.1 == (if c.Ok? then GetMarker(env, fs1, c.value).1 else fs1))
  {
    var (c, fs1) := Prepare(env, fs, query, template);
    match c
    case Err(Uncaught(x)) => (ServerError(x), fs1)
    case Err(e) =>
      Strings.UnescapeEscape(e.message);
      (BadRequest(Strings.Escape(e.message)), fs1)
    case Ok(m) =>
      var (fetched, fs2) := GetMarker(env, fs1, m);
      match fetched
      case Ok(o) => (PngImage(o.image), fs2)
      case Err(x) => (ServerError(x), fs2)
  }

  // ---------------------------------------------------------------- properties

  /**
   An empty query asks for hue 0 and full opacity like the constructor's
   defaults, but for text size 11 where the constructor defaults to 10, so the
   view and a direct construction cache different files.
   */
  lemma ViewDefaults(template: string)
    ensures var a := RequestArgs(map[], template, Coordinate(Lookup(map[], "text_x")).value,
                                 Coordinate(Lookup(map[], "text_y")).value);
            && a == MarkerArgs(template, PyFloat(Finite(0.0)), PyFloat(Finite(1.0)), "", (PyNone, PyNone),
                               PyInt(11), PyStr("000000"))
            && a.textSize != DefaultArgs(template).textSize
            && CheckHue(a.hue) == Ok(0) && OpacityLevel(a.opacity) == Ok(255)
  {
  }

  /** A hue that `float` cannot read falls back to 0 instead of being refused. */
  lemma UnreadableHueIsZero(query: Query, template: string, x: PyValue, y: PyValue)
    requires "hue" in query && ParseFloat(query["hue"]).None?
    ensures CheckHue(RequestArgs(query, template, x, y).hue) == Ok(0)
  {
    HueArgument(query, template, x, y);
    GetFloatFallback(query, "hue", 0);
    ZeroHueAccepted();
  }

  lemma ZeroHueAccepted()
    ensures CheckHue(PyInt(0)) == Ok(0)
  {
  }

  /** The hue the view passes is `_get_float("hue", 0)`. */
  lemma HueArgument(query: Query, template: string, x: PyValue, y: PyValue)
    ensures RequestArgs(query, template, x, y).hue == GetFloat(query, "hue", 0)
  {
  }

  /** A present value that `float` cannot read leaves the integer default. */
  lemma GetFloatFallback(query: Query, key: string, default: int)
    requires key in query && ParseFloat(query[key]).None?
    ensures GetFloat(query, key, default) == PyInt(default)
  {
  }

  /** A fractional hue is truncated toward zero: 360.9 is hue 360 and -0.5 is hue 0. */
  lemma FractionalHue(query: Query, template: string, x: PyValue, y: PyValue)
    requires "hue" in query && (query["hue"] == "360.9" || query["hue"] == "-0.5")
    ensures CheckHue(RequestArgs(query, template, x, y).hue) == Ok(if query["hue"] == "360.9" then 360 else 0)
  {
    ParseFloatHueNearTop();
    ParseFloatNegativeHalf();
    HueBoundaries();
  }

  /** The response to a request whose hue the constructor refuses before it looks at anything else. */
  lemma RefusedHue(env: Env, fs: Store, query: Query, template: string, e: MarkerError)
    requires "text_x" !in query && "text_y" !in query
    requires CheckHue(RequestArgs(query, template, PyNone, PyNone).hue) == Err(e)
    ensures Prepare(env, fs, query, template) == (Err(e), fs)
  {
  }

  /** `hue=nan` is refused with the hue message, since `int(nan)` raises ValueError. */
  lemma NanHue(env: Env, fs: Store, query: Query, template: string)
    requires "hue" in query && query["hue"] == "nan"
    requires "text_x" !in query && "text_y" !in query
    ensures Get(env, fs, query, template) == (BadRequest(Strings.Escape(HueMessage)), fs)
  {
    ParseFloatOfWord("nan");
    HueArgument(query, template, PyNone, PyNone);
    HueBoundaries();
    RefusedHue(env, fs, query, template, InvalidHue(HueMessage));
    TypedRefusal(env, fs, query, template, InvalidHue(HueMessage));
  }

  /** A typed construction error is answered with its escaped message, and nothing is written. */
  lemma TypedRefusal(env: Env, fs: Store, query: Query, template: string, e: MarkerError)
    requires !e.Uncaught? && Prepare(env, fs, query, template) == (Err(e), fs)
    ensures Get(env, fs, query, template) == (BadRequest(Strings.Escape(e.message)), fs)
  {
  }

  /** `hue=inf` escapes the view's error handling as OverflowError, a server error. */
  lemma InfiniteHue(env: Env, fs: Store, query: Query, template: string)
    requires "hue" in query && query["hue"] == "inf"
    requires "text_x" !in query && "text_y" !in query
    ensures Get(env, fs, query, template) == (ServerError(OverflowError), fs)
  {
    ParseFloatOfWord("inf");
    HueArgument(query, template, PyNone, PyNone);
    HueBoundaries();
    RefusedHue(env, fs, query, template, Uncaught(OverflowError));
    assert Prepare(env, fs, query, template) == (Err(Uncaught(OverflowError)), fs);
  }

  /** A superscript digit in a coordinate is a server error, whatever else the query says. */
  lemma SuperscriptCoordinate(env: Env, fs: Store, query: Query, template: string)
    requires "text_x" in query && query["text_x"] == [0xB2 as char]
    ensures Get(env, fs, query, template) == (ServerError(ValueError), fs)
  {
    CoordinateExamples();
  }

  /** A refused request leaves the store as it was, and its body reads back as the message. */
  lemma RefusalsWriteNothing(env: Env, fs: Store, query: Query, template: string)
    requires Get(env, fs, query, template).0.BadRequest?
    ensures Get(env, fs, query, template).1 == fs
    ensures Prepare(env, fs, query, template).0.Err?
    ensures Strings.Escape(Prepare(env, fs, query, template).0.error.message) == Get(env, fs, query, template).0.body
  {
  }

  /**
   Asking again for a hue-0 marker just served gives the same image and
   changes nothing: the second request is a cache hit.
   */
  lemma GetIdempotent(env: Env, fs: Store, query: Query, template: string)
    requires Get(env, fs, query, template).0.PngImage?
    requires Prepare(env, fs, query, template).0.value.hue == 0
    ensures var fs' := Get(env, fs, query, template).1;
            Get(env, fs', query, template) == (Get(env, fs, query, template).0, fs')
  {
    var (c, fs1) := Prepare(env, fs, query, template);
    var fs' := Get(env, fs, query, template).1;
    assert fs1 == fs;
    assert fs' == GetMarker(env, fs, c.value).1;
    assert Prepare(env, fs', query, template) == (c, fs');
    GetMarkerIdempotent(env, fs, c.value);
  }
}
